=== FILE: README.md ===
# Quest progress reconciliation, modelled in Dafny

The system awards points for in-game quests. It keeps four record
families: daily quests and milestone ("newbie") quests, each keyed either
by a wallet address or by an NFT id. A record holds a done flag, its
accumulated reward points and, for most families, the player's name.

Every quest check follows the same steps. If the record is already done,
the check returns before asking the game's indexer anything. Otherwise it
asks the indexer and turns the answer into a verdict. It then reconciles
the record (`updateQuestProgressInDB`):

- an absent record is created;
- a record that is not done takes the verdict, and gains the reward only
  when the verdict is true;
- a done record is left alone.

A daily reset clears the done flag of the wallet daily family. A periodic
job re-runs the checks for every wallet that has daily records. The HTTP
routes run the checks and read back fixed status lists or a merged points
leaderboard.

The model is functional:

- A store is a `map<Key, Record>`.
- Every indexer answer is an input of type `Fetch<T>`: a failed request
  (`Failed`) or its payload.
- Clock readings and module-load instants are integer millisecond
  parameters.
- Each check returns the new store together with the indexer queries it
  issued, so "no lookup" is observable.

Modules:

| module | what it holds |
|---|---|
| `Values` | options, JavaScript values the indexer returns, and JavaScript `>=`, truthiness and `\|\|` |
| `Progress` | the store and the three-case reconcile rule |
| `Rewards` | the two reward tables |
| `Predicates` | verdicts over indexer event records |
| `Windows` | query windows |
| `Checks` | the shared check skeleton and a run of checks |
| `DailyQuests`, `WalletDaily`, `NftDaily` | the four daily checks and the NFT batch folds |
| `Milestones` | the milestone checks |
| `Cron` | the reset and the periodic run |
| `Leaderboard` | the points merge |
| `Server` | the status routes |

Two behaviours of the code are worth knowing:

- The daily reset clears only the wallet daily family (`QuestProgress`,
  cronJob.js:37). Nothing resets the NFT daily family, so
  `Cron.ResetQuestProgress` leaves it untouched.
- The faucet batch visits only the senders in the indexer's answer. A cohort
  member with no faucet record gets no record, where the per-NFT check would
  create a not-done one.

## Model

| member | source | states |
|---|---|---|
| Values.OnlyNumbersMeetThresholds | services/newbieQuestService.js:142 | above 1, a JavaScript `data >= n` holds only for a number at least n; a boolean, null or missing answer never completes a counting quest |
| Progress.ReconcileRecord | services/questServiceNft.js:68-106 | the record left at a key: done iff it was done or the verdict is true; points grow by the reward exactly on a not-done to done step; a name is kept, or set on creation; a done record is returned unchanged |
| Progress.Reconcile | services/questServiceNft.js:68-106 | only the key changes; it becomes present; done iff done before or verdict; reward added once on the transition; nothing is lost; a done key leaves the store identical |
| Progress.Settle | services/questServiceNft.js:130-137 | a check's call with `points = completed ? reward : 0` reconciles with the reward exactly when the verdict is true |
| Progress.ReconcileIdempotent | services/questServiceNft.js:101-105 | reconciling the same verdict twice equals reconciling it once, so a true verdict is rewarded once per period |
| Progress.RewardAtMostOnce | services/questServiceNft.js:92-105 | over any sequence of verdicts for one key, the reward is added once if the key was not done and some verdict is true, and never otherwise; the key ends done iff it was done or some verdict was true |
| Rewards.DailyReward | services/questServiceNft.js:28-43 | craft_ships 5, sail_distance 10, battle_pve 15, battle_pvp 20, claim_energy 3, anything else 0; positive exactly on the table's names |
| Rewards.MilestoneReward | services/newbieQuestServiceNft.js:23-48 | roster 5, wood, ore and cotton 3, rosterSailed 10, shipOrderArranged 3, first4Craft 10, firstPveWin 15, claimedIsland 5, walletCreated 2, anything else 0 |
| Predicates.Wins | services/questServiceNft.js:210-211 | every event kept is an event of the answer whose winner is the number 1, and there are no more of them than events |
| Predicates.WinsExactly | services/questService.js:166-167 | the filter keeps every winner-1 event as often as it occurs and drops every other event |
| Predicates.PvpWon | services/questServiceNft.js:252-256 | PvP is won iff some event has the player as initiator with winner 1 or as responder with winner 0 |
| Predicates.Claimed | services/questService.js:132-134 | the faucet is claimed iff some record's sender is the wallet |
| Predicates.AnyIslandClaimed | services/newbieQuestServiceNft.js:303-305 | some player has a `claimedIsland` that is not null |
| Predicates.PveBoundary | services/questService.js:166-167 | with 2 wins PvE is not done, and one more event completes it iff its winner is 1 |
| Windows.UtcDayStart | services/questServiceNft.js:10-15 | midnight UTC of the current day: a multiple of a day, at most a day before the clock |
| Windows.DailyWindow | services/questServiceNft.js:9-26 | the NFT daily window starts 1 minute after a UTC midnight, spans a day less one second, and the clock lies in that UTC day |
| Windows.SameDaySameWindow | services/questServiceNft.js:9-26 | any two calls in one UTC day query the same window |
| Windows.ConsecutiveWindowsLeaveOneSecond | services/questServiceNft.js:15-23 | the next day's window starts one second after this one ends, so events in that second fall in no window |
| Windows.FirstMinuteOutsideWindow | services/questServiceNft.js:15 | during the first minute of a UTC day the current instant is before the window |
| Windows.WalletDailyWindow | services/questService.js:8-18 | the wallet daily window ends at the module-load instant, because the fourth argument is ignored, and spans a day less one minute |
| Windows.WalletWindowMissesLaterEvents | services/questService.js:17-18 | no event stamped after the module loaded is ever in the wallet daily window |
| Windows.MilestoneWindow | services/newbieQuestServiceNft.js:17-18 | the milestone window starts at 2024-08-08T00:00Z and ends at the clock truncated to whole seconds |
| Windows.MilestoneWindowTracksClock | services/newbieQuestServiceNft.js:192-199 | readings within one second give the same end; readings a second apart give later ends |
| Checks.Evaluate | services/questServiceNft.js:108-144 | a done record returns with no lookup and no change; otherwise exactly one query; a failed request changes nothing; a verdict is reconciled; only the check's key changes |
| Checks.PreCheckOnlySavesLookup | services/questService.js:84-89 | with a verdict in hand, the done pre-check changes nothing beyond reconcile: the result equals reconciling directly |
| Checks.RunSteps | services/questServiceNft.js:108-270 | a sequence of checks changes only its own keys, never loses points, names new records, and issues at most one of its own queries per check |
| Checks.OwnCheckDecides | services/questServiceNft.js:108-270 | when every check has its own record, that record is confirmed iff its own verdict is true, and earns that check's reward |
| Checks.RunStepsSettles | services/questServiceNft.js:92-105 | after a run a record is done iff it was done or some check confirmed it; it gains the first confirming reward only if it was not done |
| Checks.RunStepsOwnVerdicts | services/questServiceNft.js:108-270 | with distinct records, each record ends done iff it was done or its verdict is true, and gains its reward exactly on that step |
| DailyQuests.CheckCraft | services/questServiceNft.js:108-144 | no lookup when done; a failed request changes nothing; otherwise reconciled with 5 points and verdict "at least 4 records" |
| DailyQuests.CheckFaucet | services/questServiceNft.js:146-183 | as above with 3 points and verdict "some record's sender is the wallet" |
| DailyQuests.CheckPve | services/questServiceNft.js:185-225 | as above with 15 points and verdict "at least 3 events with winner 1" |
| DailyQuests.CheckPvp | services/questServiceNft.js:227-270 | as above with 20 points and the initiator/responder verdict |
| DailyQuests.DailySteps | services/questService.js:83-206 | the four daily checks have distinct records, exactly the subject's four daily keys, and query the given window and sender |
| DailyQuests.RunDaily | services/questServiceNft.js:108-270 | the four daily checks change only the subject's four daily records, never lose points, name new records, and issue at most 4 queries over the window |
| DailyQuests.RunDailySettles | services/questService.js:83-206 | each daily quest ends done iff it was done or its own lookup qualified, and gains 5, 3, 15 or 20 exactly on that step |
| WalletDaily.ReconcileWallet | services/questService.js:45-81 | the wallet reconcile has the same three cases and never stores a name |
| WalletDaily.WalletChecksReconcile | services/questService.js:83-206 | each of the four wallet checks, once its lookup answers, leaves exactly the wallet reconcile of its own quest, passing the reward only on a true verdict |
| WalletDaily.RunDailyChecks | services/questService.js:83-206 | the wallet's daily checks touch only its four records, store no name, and always query the window frozen at load |
| NftDaily.RunNftDaily | services/questServiceNft.js:108-270 | the NFT's daily checks touch only its four records, ask about the owning wallet over today's UTC window, and name new records |
| NftDaily.Addresses | services/questServiceNft.js:278 | the batch's address list is the cohort's addresses, in order, repeats kept |
| NftDaily.AddressBook | services/questServiceNft.js:279-284 | every cohort address is in the batch's address map, and each entry is a cohort member listing that address |
| NftDaily.AddressBookKeepsLast | services/questServiceNft.js:279-284 | an address maps to the last cohort entry that lists it |
| NftDaily.Tally | services/questServiceNft.js:297-300 | the `reduce` count of a sender equals its number of counted records, and only senders with one get an entry |
| NftDaily.Sweep | services/questServiceNft.js:303-327 | the cohort loop touches only the book's NFTs for the quest, never loses points, and leaves every listed address's NFT with a record |
| NftDaily.SweepAt | services/questServiceNft.js:303-327 | an address's NFT ends done iff done before or listed with a true verdict, rewarded once however often it is listed |
| NftDaily.Batch | services/questServiceNft.js:272-335 | a failed request changes nothing; otherwise each listed address's last-listed NFT ends with a record, including addresses with no events |
| NftDaily.CraftBatch | services/questServiceNft.js:272-335 | the craft batch, through the per-sender `reduce` tally with threshold 4 |
| NftDaily.PveBatch | services/questServiceNft.js:392-455 | the PvE batch, through the per-sender tally of winner-1 events with threshold 3 |
| NftDaily.PvpBatch | services/questServiceNft.js:457-530 | the PvP batch, through the per-sender tally of events its sender won with threshold 1 |
| NftDaily.FaucetSweep | services/questServiceNft.js:361-385 | the faucet loop runs over the returned records, skips senders outside the cohort, and touches only the book's faucet records |
| NftDaily.FaucetSweepAt | services/questServiceNft.js:361-385 | a member's NFT is done iff done before or the member sent a record; 3 points are granted once however many records; no record leaves it as it was |
| NftDaily.FaucetBatch | services/questServiceNft.js:337-390 | a failed request changes nothing; otherwise only the cohort's faucet records change |
| NftDaily.FromSender | services/questServiceNft.js:121-127 | a record is among one sender's records iff it is a record of the answer from that sender |
| NftDaily.FromSenderExactly | services/questServiceNft.js:121-127 | one sender's records hold each of the answer's records from that sender as often as it occurs, and no other record |
| NftDaily.CountAllRecords | services/questServiceNft.js:297-300 | a sender's craft count is the number of its records |
| NftDaily.CountWinRecords | services/questServiceNft.js:417-421 | a sender's PvE count is the number of its winner-1 records |
| NftDaily.CountPvpRecords | services/questServiceNft.js:482-490 | a sender has a PvP count iff it won one of its own records |
| NftDaily.FaucetBySender | services/questServiceNft.js:361-372 | a sender claims the faucet in the whole answer iff it does in its own records |
| NftDaily.MemberListed | services/questServiceNft.js:278-284 | every member of the address map is among the cohort's addresses |
| NftDaily.BatchAt | services/questServiceNft.js:303-327 | with one NFT per address, a batch decides each member's NFT by that member's verdict, rewarded once |
| NftDaily.CraftBatchAgreesWithCheck | services/questServiceNft.js:297-327 | for each member, the craft batch and the per-NFT craft check given that member's records leave the same done flag and points |
| NftDaily.PveBatchAgreesWithCheck | services/questServiceNft.js:417-449 | the same agreement for PvE |
| NftDaily.PvpBatchAgreesWithCheck | services/questServiceNft.js:482-524 | the same agreement for PvP |
| NftDaily.FaucetBatchAgreesWithCheck | services/questServiceNft.js:361-385 | the same done flag and points as the per-NFT faucet check; a member with no records keeps its record as it was, absent included |
| NftDaily.DuplicateUsesLastNft | services/questServiceNft.js:279-284 | an address listed twice reconciles the NFT of its last entry and leaves the earlier one alone |
| Milestones.CheckCount | services/newbieQuestServiceNft.js:105-139 | no lookup when done; otherwise one query of `/quests/<name>`; a failure changes nothing; verdict `data >= required` with the milestone reward |
| Milestones.CheckFlag | services/newbieQuestServiceNft.js:141-174 | the same, with verdict "the answer is exactly `true`" |
| Milestones.CheckFirst4Craft | services/newbieQuestServiceNft.js:176-227 | no lookup when done; verdict "at least 4 craft records", 10 points |
| Milestones.CheckFirstPveWin | services/newbieQuestServiceNft.js:229-279 | no lookup when done; verdict "at least one winner-1 event", 15 points |
| Milestones.CheckWalletAndIsland | services/newbieQuestServiceNft.js:281-323 | always one players lookup; an empty list or failure changes nothing; walletCreated is done with 2 points iff players exist; claimedIsland with 5 iff some player claimed an island, and otherwise its record (present or absent) is left as it was |
| Milestones.RecordPlayers | services/newbieQuestServiceNft.js:291-315 | for a non-empty list: walletCreated ends done with 2 points added unless done before; claimedIsland ends done with 5 added iff some player claimed an island, and is otherwise untouched, including when absent; nothing else changes |
| Milestones.NewbieSteps | services/newbieQuestServiceNft.js:325-371 | the eight checks before the players lookup reconcile distinct milestone records of the subject and ask about the sender |
| Milestones.RunNewbie | services/newbieQuestServiceNft.js:325-375 | the milestone run changes only the subject's milestone records, never loses points, names new records, and issues at most 9 lookups |
| Milestones.RunNewbieStepAt | services/newbieQuestServiceNft.js:325-375 | each of the eight checks' records ends done iff done before or its own verdict is true, and gains its reward once |
| Milestones.RunNewbieCounters | services/newbieQuestServiceNft.js:326-357 | roster, wood, ore and cotton end done iff done before or the answer reaches 4, 5, 5, 5 |
| Milestones.RunNewbieFlagsAndEvents | services/newbieQuestServiceNft.js:358-373 | rosterSailed and shipOrderArranged need exactly `true`; first4Craft needs 4 records; firstPveWin needs one win |
| Milestones.RunNewbieWalletAndIsland | services/newbieQuestService.js:260-302 | walletCreated and claimedIsland end done iff done before or the players lookup returned players, with an island for the second, gaining 2 and 5 points exactly on that transition |
| Milestones.RunNewbieNft | services/newbieQuestServiceNft.js:192-199 | the NFT milestone run touches only the NFT's milestone records and asks about the owning wallet |
| Milestones.RunNewbieWallet | services/newbieQuestService.js:17-36 | the wallet milestone run touches only the wallet's milestone records and asks about the wallet |
| Cron.ClearDone | cronJob.js:37 | every record becomes not done; the keys, points and names stay |
| Cron.ResetQuestProgress | cronJob.js:35-42 | the wallet daily records are cleared with points and names kept; the NFT daily and both milestone families are unchanged |
| Cron.ResetIdempotent | cronJob.js:37 | resetting twice equals resetting once |
| Cron.DailyForWallets | cronJob.js:21-25 | the wallets' daily checks only grow the wallet daily family, and create records only for the listed wallets, with no name |
| Cron.NewbieForWallets | cronJob.js:27 | the wallets' milestone runs only grow the wallet milestone family, and create records only for the listed wallets, with no name |
| Cron.UpdateQuestProgress | cronJob.js:17-33 | the periodic run leaves the NFT families unchanged, only grows the wallet families, and adds no wallet to the daily family |
| Cron.RunNewbieWalletSettles | services/newbieQuestService.js:304-348 | a wallet's milestone run settles each of its ten milestone records by its own lookup's verdict, with the reward gained exactly on completion |
| Cron.DailyForWalletsFrame | cronJob.js:21-25 | the daily half leaves the records of every subject outside the wallet list as they were |
| Cron.NewbieForWalletsFrame | cronJob.js:21-28 | the milestone half leaves the records of every subject outside the wallet list as they were |
| Cron.DailyForWalletsSettles | cronJob.js:21-25 | for distinct wallets, each listed wallet's four daily records end done iff done before or its own lookup qualified, gaining 5, 3, 15 or 20 points exactly then |
| Cron.NewbieForWalletsSettles | cronJob.js:21-28 | for distinct wallets, each listed wallet's ten milestone records end as its own milestone lookups decide |
| Cron.UpdateQuestProgressSettles | cronJob.js:19-28 | for each wallet of `distinct("wallet")`, its daily and milestone records end as its own lookups decide, and records of other subjects stay as they were |
| Cron.PointsAccruePerPeriod | cronJob.js:37 | over a sequence of days, each a reset followed by runs, a record gains the reward once for each day on which some run completed it |
| Cron.FaucetAcrossReset | services/questService.js:113-147 | a faucet claim creates a done record with 3 points; a second run keeps 3; the reset leaves it not done with 3; another claim brings it to 6 |
| Leaderboard.FindGroup | server.js:452-454 | `find` returns the first group with the id, or nothing iff no group has it |
| Leaderboard.CombineDaily | server.js:451-461 | one row per daily group in order, holding the daily sum plus the matching milestone sum; named by the daily name when truthy, else the milestone group's name, else null |
| Leaderboard.AppendNewbie | server.js:463-473 | appends each milestone group whose id is not yet listed, with its own sum and name; keeps the earlier rows; the ids become the union |
| Leaderboard.MergeFamilies | server.js:451-473 | the daily rows come first with their combined sums; then milestone-only rows with the first milestone group's sum; no id appears twice |
| Leaderboard.Leaderboard | server.js:503 | the answer's ids are the ids of all four families |
| Leaderboard.AppendNewbieUnique | server.js:463-473 | appending keeps the ids unique, whatever the milestone groups |
| Leaderboard.CombineDailySum | server.js:451-461 | the daily rows hold the daily sums plus the sums of the matched milestone groups |
| Leaderboard.AppendNewbieSum | server.js:463-473 | the appended rows hold the sums of the milestone groups not yet listed |
| Leaderboard.MergeFamiliesTotal | server.js:451-500 | with one group per subject, the merged rows hold exactly the daily total plus the milestone total |
| Leaderboard.LeaderboardTotal | server.js:409-503 | the answer's points equal the sum over all four families |
| Server.CheckQuestAfterReconcile | server.js:69-88 | after a reconcile, `is_ok` for the reconciled quest is true iff it was true before or the verdict was true, and unchanged for every other quest |
| Server.CheckQuestAfterReset | server.js:69-88 | after the daily reset `is_ok` is false for every wallet daily quest and unchanged for NFT daily quests |
| Server.Snapshot | server.js:142-163 | exactly one entry per listed name, in order, each with the stored values or the defaults |
| Server.SnapshotAgreesWithCheck | server.js:77-81 | every entry of a status list agrees with `/check-quest` |
| Server.NewbieListCoversTable | server.js:287-298 | the milestone list names exactly the priced milestones |
| Server.SnapshotAfterReset | cronJob.js:37 | after the reset the wallet's daily list shows every quest not done with the points shown before |
| Server.DailySnapshotAfterRun | server.js:204-241 | after a daily run each list entry is done iff it was done or its own lookup qualified |
| Server.GetAllQuests | server.js:111-182 | the checks run and the list is returned iff the chosen name is truthy; a thrown name lookup is the error reply; otherwise the store is unchanged; with a name the store is the wallet daily run's and the entries are its four daily records in list order |
| Server.GetAllQuestsNft | server.js:184-258 | the same for an NFT's daily run under the current day's window; records created carry exactly the chosen name |
| Server.GetAllQuestsNftReports | server.js:201-241 | each of the four entries of the NFT route (craft, PvE, PvP, faucet) is done iff done before or its own lookup qualified |
| Server.GetAllNewplayerQuests | server.js:260-331 | the checks run and the list is returned iff the chosen name is truthy; a thrown name lookup is the error reply; with a name the store is the wallet milestone run's under that name, created records carry it, and the entries are the ten milestone records in list order |
| Server.GetAllNewplayerQuestsNft | server.js:333-404 | the same for an NFT's milestone run, under the chosen name |

## Left out

- HTTP, CORS, status codes, logging and the cron schedule strings are
  not modelled. Neither are the database driver and connection, or the
  indexer's HTTP calls: answers are inputs, and a thrown request is
  `Failed`. `getIdAndWalletsFromNFT` is not part of this model; the NFT
  cohort is an input.
- Concurrency is not modelled. Overlapping runs can race between the
  done check and the write; the model runs one check at a time.
- The model has no calendar or time zones. Local-time setters and
  daylight-saving shifts in the wallet window are not modelled, nor is
  `Date.UTC` normalisation. Instants are integers.
- Windows.WalletDailyWindow: services/questService.js:17-18 calls
  `getTimestamp` twice, each with its own `new Date()`, so the window's
  start and end come from two clock readings taken moments apart. The
  model derives both from the single reading `loadTime`.
- Numeric strings are not converted: the model treats a string answer to
  `>=` as NaN. Fractional numbers are not modelled.
- The MongoDB `$group` aggregation is taken as an input with one group
  per subject.
- The collections declare no unique index. One record per (subject,
  quest) is assumed.
- NftDaily.RunNftDaily: the source reads the clock separately in each of
  the four checks. The model uses one reading `now` for all four, so a run
  that crosses UTC midnight is not modelled.
- Cron.UpdateQuestProgress: the daily half and the milestone half are
  applied one after the other instead of interleaved per wallet. The two
  halves touch different families, so the result is the same.
- Server.GetAllQuests: as written, the route passes positional arguments
  to checks that expect `{ playerAddr }` (server.js:131-134). The model
  runs the wallet checks for the requested wallet instead.
- `getPlayerNameByAddress` and `getWalletsFromWhitelist` are imported but
  not exported by the wallet service (server.js:15-17). The name lookup
  is an input, and `Failed` models the resulting error.
  `/get-faucet-leaderboard` (server.js:512-622) therefore fails at line
  516. Its merge is the names-and-points merge without the name column,
  so `Leaderboard` covers it. Its two batch calls are the modelled batch
  folds.
- Predicates.Wins: the order of the kept events is not stated. The checks
  only read how many there are.
- NftDaily.FromSender: the order of one sender's records is not stated.
  The checks only count them or ask whether one qualifies.
- NftDaily.FaucetSweep: a faucet record from a sender outside the cohort
  is skipped and the loop goes on. The source looks that sender up to an
  undefined NFT id. Unless its done pre-check happens to match, the create
  is rejected because `nft_id` is required (models/QuestProgressNft.js:4).
  The error reaches the catch at services/questServiceNft.js:386-388, so
  the rest of the batch is abandoned, cohort members' records included.
  The indexer is asked only about cohort addresses, so such records are not
  expected.
- The batch routes' request bodies and windows are not modelled. A batch
  is modelled by its effect on the store.
- The commented-out code in server.js is dead and not modelled.

=== FILE: checks.dfy ===
/** The skeleton every per-subject check follows, and what it asks the
    indexer. A check returns the new store together with the indexer queries
    it issued, so "returns before any lookup" is observable. A service's
    periodic run is a fixed sequence of such checks (`RunSteps`). */
module Checks {
  import opened Values
  import opened Progress
  import opened Windows

  /** The indexer endpoints the checks read. */
  datatype Endpoint =
    | ShipProductionCompleted
    | FaucetRequested
    | PlayerVsEnvironment
    | PlayerVsPlayer
    | QuestStat(path: string)
    | PlayersByOwner

  /** One indexer request: endpoint, time window (if any) and the address it
      asks about. */
  datatype Query = Query(endpoint: Endpoint, window: Option<Window>, sender: string)

  datatype Outcome = Outcome(store: Store, lookups: seq<Query>)

  /** One check, fully described: the record it reconciles, the query it
      would issue, the verdict the indexer's answer yields (or the failure of
      the request), and the reward for completing it. */
  datatype Step = Step(key: Key, query: Query, verdict: Fetch<bool>, reward: nat)

  /** Check, then reconcile: a quest already done returns before the lookup
      and changes nothing; otherwise the query is issued, a failed request
      leaves the store as it was (the error is only logged), and a verdict is
      reconciled. */
  function Evaluate(s: Store, name: Option<string>, st: Step): (o: Outcome)
    ensures IsDone(s, st.key) ==> o == Outcome(s, [])
    ensures !IsDone(s, st.key) ==> o.lookups == [st.query]
    ensures st.verdict.Failed? ==> o.store == s
    ensures st.verdict.Fetched? ==> Reconciled(s, o.store, st.key, st.reward, st.verdict.data, name)
    ensures SameExcept(s, o.store, st.key)
    ensures forall j :: j in o.store && j !in s ==> o.store[j].playerName == name
    ensures Grows(s, o.store)
  {
    if IsDone(s, st.key) then Outcome(s, [])
    else
      match st.verdict
      case Failed => Outcome(s, [st.query])
      case Fetched(c) => Outcome(Settle(s, st.key, c, st.reward, name), [st.query])
  }

  /** The done pre-check only saves the lookup: with a verdict in hand, the
      store after the check is exactly the store after reconciling it. */
  lemma PreCheckOnlySavesLookup(s: Store, name: Option<string>, k: Key, q: Query, v: bool, reward: nat)
    ensures Evaluate(s, name, Step(k, q, Fetched(v), reward)).store == Settle(s, k, v, reward, name)
  {
  }

  /** The records a sequence of checks may touch. */
  function StepKeys(steps: seq<Step>): set<Key>
    decreases |steps|
  {
    if |steps| == 0 then {} else {steps[0].key} + StepKeys(steps[1..])
  }

  /** Some check in the sequence reconciles `k` with a true verdict. */
  ghost predicate Confirmed(steps: seq<Step>, k: Key)
  {
    exists i :: 0 <= i < |steps| && steps[i].key == k && steps[i].verdict == Fetched(true)
  }

  /** The reward of the first check that completes `k`, or nothing. */
  function Earned(steps: seq<Step>, k: Key): nat
    decreases |steps|
  {
    if |steps| == 0 then 0
    else if steps[0].key == k && steps[0].verdict == Fetched(true) then steps[0].reward
    else Earned(steps[1..], k)
  }

  /** The checks of a run, one after another, each on the store the previous
      one left. Only the checks' own records change, records only grow, a
      record created here carries `name`, and every lookup issued is one of
      the checks' queries, at most one per check. */
  function RunSteps(s: Store, name: Option<string>, steps: seq<Step>): (o: Outcome)
    ensures Grows(s, o.store)
    ensures SameOutside(s, o.store, StepKeys(steps))
    ensures forall j :: j in o.store && j !in s ==> o.store[j].playerName == name
    ensures forall q :: q in o.lookups ==> exists i :: 0 <= i < |steps| && steps[i].query == q
    ensures |o.lookups| <= |steps|
    decreases |steps|
  {
    if |steps| == 0 then Outcome(s, [])
    else
      var o1 := Evaluate(s, name, steps[0]);
      var o2 := RunSteps(o1.store, name, steps[1..]);
      GrowsTransitive(s, o1.store, o2.store);
      assert forall q :: q in o2.lookups ==> exists i :: 0 <= i < |steps| && steps[i].query == q by {
        forall q | q in o2.lookups
          ensures exists i :: 0 <= i < |steps| && steps[i].query == q
        {
          var i :| 0 <= i < |steps[1..]| && steps[1..][i].query == q;
          assert steps[i + 1].query == q;
        }
      }
      Outcome(o2.store, o1.lookups + o2.lookups)
  }

  /** No two checks of the sequence reconcile the same record. */
  predicate DistinctKeys(steps: seq<Step>)
  {
    forall a, b :: 0 <= a < b < |steps| ==> steps[a].key != steps[b].key
  }

  /** When every check has its own record, a record is confirmed by its own
      check's verdict and earns that check's reward. */
  lemma {:induction false} OwnCheckDecides(steps: seq<Step>, i: nat)
    requires DistinctKeys(steps) && i < |steps|
    ensures Confirmed(steps, steps[i].key) == (steps[i].verdict == Fetched(true))
    ensures Earned(steps, steps[i].key) == (if steps[i].verdict == Fetched(true) then steps[i].reward else 0)
    decreases |steps|
  {
    if i > 0 {
      assert steps[0].key != steps[i].key;
      assert DistinctKeys(steps[1..]) by {
        forall a, b | 0 <= a < b < |steps[1..]| ensures steps[1..][a].key != steps[1..][b].key {
          assert steps[1..][a] == steps[a + 1] && steps[1..][b] == steps[b + 1];
        }
      }
      OwnCheckDecides(steps[1..], i - 1);
      assert steps[1..][i - 1] == steps[i];
      if Confirmed(steps[1..], steps[i].key) {
        var j :| 0 <= j < |steps[1..]| && steps[1..][j].key == steps[i].key && steps[1..][j].verdict == Fetched(true);
        assert steps[j + 1] == steps[1..][j];
      }
    } else {
      forall j | 0 < j < |steps| ensures steps[j].key != steps[0].key {
      }
      if steps[0].verdict != Fetched(true) && |steps| > 1 {
        EarnedElsewhere(steps[1..], steps[0].key);
      }
    }
  }

  /** A record no check reconciles earns nothing. */
  lemma {:induction false} EarnedElsewhere(steps: seq<Step>, k: Key)
    requires forall j :: 0 <= j < |steps| ==> steps[j].key != k
    ensures Earned(steps, k) == 0
    decreases |steps|
  {
    if |steps| > 0 {
      EarnedElsewhere(steps[1..], k);
    }
  }

  /** What a run does to one record: it ends done exactly when it was done or
      some check of the run confirmed it, and it gains the reward of the
      first confirming check only if it was not done before; later checks of
      the same record add nothing. */
  lemma {:induction false} RunStepsSettles(s: Store, name: Option<string>, steps: seq<Step>, k: Key)
    ensures IsDone(RunSteps(s, name, steps).store, k) == (IsDone(s, k) || Confirmed(steps, k))
    ensures PointsAt(RunSteps(s, name, steps).store, k) == PointsAt(s, k) + (if IsDone(s, k) then 0 else Earned(steps, k))
    decreases |steps|
  {
    if |steps| > 0 {
      var s1 := Evaluate(s, name, steps[0]).store;
      RunStepsSettles(s1, name, steps[1..], k);
      ConfirmedCons(steps, k);
      if k != steps[0].key {
        assert IsDone(s1, k) == IsDone(s, k) && PointsAt(s1, k) == PointsAt(s, k);
      }
    }
  }

  /** A record is confirmed by a non-empty run exactly when the first check
      confirms it or the rest of the run does. */
  lemma ConfirmedCons(steps: seq<Step>, k: Key)
    requires |steps| > 0
    ensures Confirmed(steps, k)
         == ((steps[0].key == k && steps[0].verdict == Fetched(true)) || Confirmed(steps[1..], k))
  {
    if Confirmed(steps, k) && !(steps[0].key == k && steps[0].verdict == Fetched(true)) {
      var i :| 0 <= i < |steps| && steps[i].key == k && steps[i].verdict == Fetched(true);
      assert steps[1..][i - 1] == steps[i];
    }
    if Confirmed(steps[1..], k) {
      var i :| 0 <= i < |steps[1..]| && steps[1..][i].key == k && steps[1..][i].verdict == Fetched(true);
      assert steps[i + 1] == steps[1..][i];
    }
  }

  /** With one check per record, each check's own verdict decides its
      record: done exactly when it was done or the verdict is true, with the
      check's reward gained exactly on that transition. */
  lemma RunStepsOwnVerdicts(s: Store, name: Option<string>, steps: seq<Step>)
    requires DistinctKeys(steps)
    ensures forall i :: 0 <= i < |steps| ==>
      var k := steps[i].key;
      && IsDone(RunSteps(s, name, steps).store, k) == (IsDone(s, k) || steps[i].verdict == Fetched(true))
      && PointsAt(RunSteps(s, name, steps).store, k)
         == PointsAt(s, k) + (if !IsDone(s, k) && steps[i].verdict == Fetched(true) then steps[i].reward else 0)
  {
    forall i | 0 <= i < |steps|
      ensures var k := steps[i].key;
        && IsDone(RunSteps(s, name, steps).store, k) == (IsDone(s, k) || steps[i].verdict == Fetched(true))
        && PointsAt(RunSteps(s, name, steps).store, k)
           == PointsAt(s, k) + (if !IsDone(s, k) && steps[i].verdict == Fetched(true) then steps[i].reward else 0)
    {
      OwnCheckDecides(steps, i);
      RunStepsSettles(s, name, steps, steps[i].key);
    }
  }
}

=== FILE: cron.dfy ===
/** The scheduled jobs: the daily reset and the periodic run over the
    wallets that already have daily records. The four record families are
    bundled in one world. */
module Cron {
  import opened Values
  import opened Progress
  import opened Rewards
  import opened Predicates
  import opened Windows
  import opened Checks
  import opened DailyQuests
  import opened WalletDaily
  import opened Milestones

  datatype World = World(walletDaily: Store, nftDaily: Store, walletMilestone: Store, nftMilestone: Store)

  /** `updateMany({}, { $set: { completedToday: false } })` on one store:
      every record becomes not done; points, names and keys stay. */
  function ClearDone(s: Store): (r: Store)
    ensures r.Keys == s.Keys
    ensures forall k :: k in s ==> !r[k].done && r[k].points == s[k].points && r[k].playerName == s[k].playerName
  {
    map k | k in s :: s[k].(done := false)
  }

  /** `resetQuestProgress`: only the wallet daily family is cleared; the NFT
      daily family and both milestone families are left as they are. */
  function ResetQuestProgress(w: World): (r: World)
    ensures r.nftDaily == w.nftDaily && r.walletMilestone == w.walletMilestone && r.nftMilestone == w.nftMilestone
    ensures r.walletDaily.Keys == w.walletDaily.Keys
    ensures forall k :: k in w.walletDaily ==> !IsDone(r.walletDaily, k) && PointsAt(r.walletDaily, k) == PointsAt(w.walletDaily, k)
    ensures forall k :: k in w.walletDaily ==> r.walletDaily[k].playerName == w.walletDaily[k].playerName
  {
    w.(walletDaily := ClearDone(w.walletDaily))
  }

  /** Resetting twice is resetting once. */
  lemma ResetIdempotent(w: World)
    ensures ResetQuestProgress(ResetQuestProgress(w)) == ResetQuestProgress(w)
  {
    var once := ResetQuestProgress(w);
    assert ClearDone(once.walletDaily) == once.walletDaily;
  }

  /** The indexer's answers for one wallet of the periodic run. */
  datatype WalletFeed = WalletFeed(daily: DailyFeed, newbie: NewbieFeed)

  /** The daily half of the loop of `updateQuestProgress`: the four daily
      checks for each wallet in order, over the window frozen at
      `dailyLoad`. Records only grow and every record created belongs to one
      of the listed wallets. */
  function DailyForWallets(s: Store, wallets: seq<string>, dailyLoad: int, feeds: seq<WalletFeed>): (r: Store)
    requires |feeds| == |wallets|
    ensures Grows(s, r)
    ensures forall k :: k in r && k !in s ==> k.subject in wallets && r[k].playerName == None
    decreases |wallets|
  {
    if |wallets| == 0 then s
    else
      var s1 := RunDailyChecks(s, wallets[0], dailyLoad, feeds[0].daily).store;
      assert forall k :: k in s1 && k !in s ==> k.subject == wallets[0] && s1[k].playerName == None by {
        forall k | k in s1 && k !in s ensures k.subject == wallets[0] {
          assert k in DailyKeys(wallets[0]);
        }
      }
      var r := DailyForWallets(s1, wallets[1..], dailyLoad, feeds[1..]);
      GrowsTransitive(s, s1, r);
      assert forall x :: x in wallets[1..] ==> x in wallets;
      r
  }

  /** The milestone half of the same loop: `runNewbieQuestsForPlayer` for
      each wallet, with no name, over windows ending at `newbieLoad`. */
  function NewbieForWallets(s: Store, wallets: seq<string>, newbieLoad: int, feeds: seq<WalletFeed>): (r: Store)
    requires |feeds| == |wallets|
    ensures Grows(s, r)
    ensures forall k :: k in r && k !in s ==> k.subject in wallets && r[k].playerName == None
    decreases |wallets|
  {
    if |wallets| == 0 then s
    else
      var s1 := RunNewbieWallet(s, wallets[0], None, newbieLoad, feeds[0].newbie).store;
      assert forall k :: k in s1 && k !in s ==> k.subject == wallets[0] && s1[k].playerName == None by {
        forall k | k in s1 && k !in s ensures k.subject == wallets[0] {
          assert k in MilestoneKeys(wallets[0]);
        }
      }
      var r := NewbieForWallets(s1, wallets[1..], newbieLoad, feeds[1..]);
      GrowsTransitive(s, s1, r);
      assert forall x :: x in wallets[1..] ==> x in wallets;
      r
  }

  /** A run that only grows a store and only creates records of subjects it
      already had keeps its set of subjects. */
  lemma NoNewSubjects(s: Store, r: Store, wallets: seq<string>)
    requires Grows(s, r)
    requires forall k :: k in r && k !in s ==> k.subject in wallets
    requires forall x :: x in wallets ==> x in SubjectsOf(s)
    ensures SubjectsOf(r) == SubjectsOf(s)
  {
    forall x | x in SubjectsOf(r) ensures x in SubjectsOf(s) {
      var k :| k in r && k.subject == x;
    }
    forall x | x in SubjectsOf(s) ensures x in SubjectsOf(r) {
      var k :| k in s && k.subject == x;
      assert k in r;
    }
  }

  /** `updateQuestProgress`: the wallets are the distinct wallets of the
      wallet daily family. Each wallet's daily checks touch only the daily
      family and its milestone run only the milestone family, so running the
      two halves one after the other gives the interleaved loop's result.
      The NFT families are untouched, the wallet families only grow, and no
      wallet joins the daily family: only wallets that already have a record
      are evaluated. */
  function UpdateQuestProgress(w: World, wallets: seq<string>, dailyLoad: int, newbieLoad: int, feeds: seq<WalletFeed>): (r: World)
    requires forall x :: x in wallets <==> x in SubjectsOf(w.walletDaily)
    requires |feeds| == |wallets|
    ensures r.nftDaily == w.nftDaily && r.nftMilestone == w.nftMilestone
    ensures Grows(w.walletDaily, r.walletDaily) && Grows(w.walletMilestone, r.walletMilestone)
    ensures SubjectsOf(r.walletDaily) == SubjectsOf(w.walletDaily)
    ensures forall k :: k in r.walletMilestone && k !in w.walletMilestone ==> k.subject in SubjectsOf(w.walletDaily)
  {
    var daily := DailyForWallets(w.walletDaily, wallets, dailyLoad, feeds);
    var newbie := NewbieForWallets(w.walletMilestone, wallets, newbieLoad, feeds);
    NoNewSubjects(w.walletDaily, daily, wallets);
    w.(walletDaily := daily, walletMilestone := newbie)
  }

  // ---------------------------------------------------------------------
  // Each wallet of the periodic run

  /** Two stores hold the same records, present or absent, for `subject`. */
  ghost predicate SameForSubject(s: Store, t: Store, subject: string)
  {
    forall k: Key :: k.subject == subject ==> (k in s <==> k in t) && (k in s ==> s[k] == t[k])
  }

  /** Record `k` went from `s` to `r` as one check with this verdict
      settles it: done exactly when it was done or `confirmed`, gaining
      `reward` exactly on that transition. */
  ghost predicate QuestSettled(s: Store, r: Store, k: Key, confirmed: bool, reward: nat)
  {
    && IsDone(r, k) == (IsDone(s, k) || confirmed)
    && PointsAt(r, k) == PointsAt(s, k) + (if !IsDone(s, k) && confirmed then reward else 0)
  }

  /** The four daily records of `wallet` went from `s` to `r` as the
      wallet's own daily lookups in `feed` decide. */
  ghost predicate DailySettled(s: Store, r: Store, wallet: string, feed: DailyFeed)
  {
    && QuestSettled(s, r, Key(wallet, CraftShips), Qualifies(feed.craft, CraftDone), 5)
    && QuestSettled(s, r, Key(wallet, ClaimEnergy), Qualifies(feed.faucet, es => Claimed(es, wallet)), 3)
    && QuestSettled(s, r, Key(wallet, BattlePve), Qualifies(feed.pve, PveDone), 15)
    && QuestSettled(s, r, Key(wallet, BattlePvp), Qualifies(feed.pvp, es => PvpWon(es, wallet)), 20)
  }

  /** The ten milestone records of `wallet` went from `s` to `r` as the
      wallet's own milestone lookups in `feed` decide: each pre-checked
      milestone by its own check's verdict and reward, walletCreated and
      claimedIsland by the players lookup. */
  ghost predicate NewbieSettled(s: Store, r: Store, wallet: string, loadTime: int, feed: NewbieFeed)
  {
    var steps := NewbieSteps(wallet, wallet, MilestoneWindow(loadTime), MilestoneWindow(loadTime), feed);
    && (forall j :: 0 <= j < |steps| ==> QuestSettled(s, r, steps[j].key, steps[j].verdict == Fetched(true), steps[j].reward))
    && QuestSettled(s, r, Key(wallet, WalletCreated), feed.players.Fetched? && |feed.players.data| > 0, 2)
    && QuestSettled(s, r, Key(wallet, ClaimedIsland),
                    feed.players.Fetched? && HasPlayer(feed.players.data) && AnyIslandClaimed(feed.players.data), 5)
  }

  /** The wallets listed are pairwise different, as `distinct("wallet")`
      returns them. */
  predicate Distinct(wallets: seq<string>)
  {
    forall a, b :: 0 <= a < b < |wallets| ==> wallets[a] != wallets[b]
  }

  lemma DistinctTail(wallets: seq<string>)
    requires |wallets| > 0 && Distinct(wallets)
    ensures Distinct(wallets[1..]) && wallets[0] !in wallets[1..]
  {
    forall a, b | 0 <= a < b < |wallets[1..]| ensures wallets[1..][a] != wallets[1..][b] {
      assert wallets[1..][a] == wallets[a + 1] && wallets[1..][b] == wallets[b + 1];
    }
  }

  /** A wallet's milestone run settles its records from its own lookups. */
  lemma RunNewbieWalletSettles(s: Store, wallet: string, loadTime: int, feed: NewbieFeed)
    ensures NewbieSettled(s, RunNewbieWallet(s, wallet, None, loadTime, feed).store, wallet, loadTime, feed)
  {
    var w := MilestoneWindow(loadTime);
    var steps := NewbieSteps(wallet, wallet, w, w, feed);
    var r := RunNewbieWallet(s, wallet, None, loadTime, feed).store;
    forall j | 0 <= j < |steps|
      ensures QuestSettled(s, r, steps[j].key, steps[j].verdict == Fetched(true), steps[j].reward)
    {
      RunNewbieStepAt(s, wallet, wallet, None, w, w, feed, j);
    }
    RunNewbieWalletAndIsland(s, wallet, wallet, None, w, w, feed);
  }

  /** One wallet's daily checks leave every other subject as it was. */
  lemma DailyStepFrame(s: Store, wallet: string, dailyLoad: int, feed: DailyFeed, x: string)
    requires x != wallet
    ensures SameForSubject(s, RunDailyChecks(s, wallet, dailyLoad, feed).store, x)
  {
    var r := RunDailyChecks(s, wallet, dailyLoad, feed).store;
    forall k: Key | k.subject == x ensures (k in s <==> k in r) && (k in s ==> s[k] == r[k]) {
      assert k !in DailyKeys(wallet);
    }
  }

  lemma SameForSubjectTrans(s1: Store, s2: Store, s3: Store, x: string)
    requires SameForSubject(s1, s2, x) && SameForSubject(s2, s3, x)
    ensures SameForSubject(s1, s3, x) && SameForSubject(s3, s1, x)
  {
  }

  /** The daily half leaves every subject outside the list as it was. */
  lemma {:induction false} DailyForWalletsFrame(s: Store, wallets: seq<string>, dailyLoad: int, feeds: seq<WalletFeed>, x: string)
    requires |feeds| == |wallets| && x !in wallets
    ensures SameForSubject(s, DailyForWallets(s, wallets, dailyLoad, feeds), x)
    decreases |wallets|
  {
    if |wallets| > 0 {
      var s1 := RunDailyChecks(s, wallets[0], dailyLoad, feeds[0].daily).store;
      assert x !in wallets[1..];
      DailyStepFrame(s, wallets[0], dailyLoad, feeds[0].daily, x);
      DailyForWalletsFrame(s1, wallets[1..], dailyLoad, feeds[1..], x);
      SameForSubjectTrans(s, s1, DailyForWallets(s1, wallets[1..], dailyLoad, feeds[1..]), x);
    }
  }

  /** One wallet's milestone run leaves every other subject as it was. */
  lemma NewbieStepFrame(s: Store, wallet: string, newbieLoad: int, feed: NewbieFeed, x: string)
    requires x != wallet
    ensures SameForSubject(s, RunNewbieWallet(s, wallet, None, newbieLoad, feed).store, x)
  {
    var r := RunNewbieWallet(s, wallet, None, newbieLoad, feed).store;
    forall k: Key | k.subject == x ensures (k in s <==> k in r) && (k in s ==> s[k] == r[k]) {
      assert k !in MilestoneKeys(wallet);
    }
  }

  /** The milestone half leaves every subject outside the list as it was. */
  lemma {:induction false} NewbieForWalletsFrame(s: Store, wallets: seq<string>, newbieLoad: int, feeds: seq<WalletFeed>, x: string)
    requires |feeds| == |wallets| && x !in wallets
    ensures SameForSubject(s, NewbieForWallets(s, wallets, newbieLoad, feeds), x)
    decreases |wallets|
  {
    if |wallets| > 0 {
      var s1 := RunNewbieWallet(s, wallets[0], None, newbieLoad, feeds[0].newbie).store;
      assert x !in wallets[1..];
      NewbieStepFrame(s, wallets[0], newbieLoad, feeds[0].newbie, x);
      NewbieForWalletsFrame(s1, wallets[1..], newbieLoad, feeds[1..], x);
      SameForSubjectTrans(s, s1, NewbieForWallets(s1, wallets[1..], newbieLoad, feeds[1..]), x);
    }
  }

  /** Settling is read only through a subject's own records, so it carries
      over to stores that agree with the two ends on that subject. */
  lemma DailySettledTransfer(s: Store, s': Store, r: Store, r': Store, wallet: string, feed: DailyFeed)
    requires DailySettled(s, r, wallet, feed)
    requires SameForSubject(s, s', wallet) && SameForSubject(r, r', wallet)
    ensures DailySettled(s', r', wallet, feed)
  {
  }

  lemma NewbieSettledTransfer(s: Store, s': Store, r: Store, r': Store, wallet: string, loadTime: int, feed: NewbieFeed)
    requires NewbieSettled(s, r, wallet, loadTime, feed)
    requires SameForSubject(s, s', wallet) && SameForSubject(r, r', wallet)
    ensures NewbieSettled(s', r', wallet, loadTime, feed)
  {
    var w := MilestoneWindow(loadTime);
    var steps := NewbieSteps(wallet, wallet, w, w, feed);
    forall j | 0 <= j < |steps|
      ensures QuestSettled(s', r', steps[j].key, steps[j].verdict == Fetched(true), steps[j].reward)
    {
      NewbieStepsSkipWalletAndIsland(wallet, wallet, w, w, feed, j);
      assert QuestSettled(s, r, steps[j].key, steps[j].verdict == Fetched(true), steps[j].reward);
    }
  }

  /** In the daily half, each listed wallet's four daily records end as its
      own daily lookups decide, from the records it had before the run. */
  lemma {:induction false} DailyForWalletsSettles(s: Store, wallets: seq<string>, dailyLoad: int, feeds: seq<WalletFeed>, i: nat)
    requires |feeds| == |wallets| && Distinct(wallets) && i < |wallets|
    ensures DailySettled(s, DailyForWallets(s, wallets, dailyLoad, feeds), wallets[i], feeds[i].daily)
    decreases |wallets|
  {
    var s1 := RunDailyChecks(s, wallets[0], dailyLoad, feeds[0].daily).store;
    var r := DailyForWallets(s1, wallets[1..], dailyLoad, feeds[1..]);
    DistinctTail(wallets);
    if i == 0 {
      RunDailySettles(s, wallets[0], wallets[0], None, WalletDailyWindow(dailyLoad), feeds[0].daily);
      DailyForWalletsFrame(s1, wallets[1..], dailyLoad, feeds[1..], wallets[0]);
      DailySettledTransfer(s, s, s1, r, wallets[0], feeds[0].daily);
    } else {
      DailyForWalletsSettles(s1, wallets[1..], dailyLoad, feeds[1..], i - 1);
      assert wallets[1..][i - 1] == wallets[i] && feeds[1..][i - 1] == feeds[i];
      assert wallets[i] != wallets[0];
      DailyStepFrame(s, wallets[0], dailyLoad, feeds[0].daily, wallets[i]);
      SameForSubjectTrans(s, s1, s1, wallets[i]);
      DailySettledTransfer(s1, s, r, r, wallets[i], feeds[i].daily);
    }
  }

  /** The milestone half is the first wallet's run followed by the rest. */
  lemma NewbieForWalletsUnfold(s: Store, wallets: seq<string>, newbieLoad: int, feeds: seq<WalletFeed>)
    requires |feeds| == |wallets| > 0
    ensures NewbieForWallets(s, wallets, newbieLoad, feeds)
         == NewbieForWallets(RunNewbieWallet(s, wallets[0], None, newbieLoad, feeds[0].newbie).store, wallets[1..], newbieLoad, feeds[1..])
  {
  }

  /** The first wallet of the milestone half is settled by its own run,
      which the later wallets leave alone. */
  lemma NewbieForWalletsHead(s: Store, wallets: seq<string>, newbieLoad: int, feeds: seq<WalletFeed>)
    requires |feeds| == |wallets| > 0 && wallets[0] !in wallets[1..]
    ensures NewbieSettled(s, NewbieForWallets(s, wallets, newbieLoad, feeds), wallets[0], newbieLoad, feeds[0].newbie)
  {
    var s1 := RunNewbieWallet(s, wallets[0], None, newbieLoad, feeds[0].newbie).store;
    var r := NewbieForWallets(s1, wallets[1..], newbieLoad, feeds[1..]);
    NewbieForWalletsUnfold(s, wallets, newbieLoad, feeds);
    RunNewbieWalletSettles(s, wallets[0], newbieLoad, feeds[0].newbie);
    NewbieForWalletsFrame(s1, wallets[1..], newbieLoad, feeds[1..], wallets[0]);
    NewbieSettledTransfer(s, s, s1, r, wallets[0], newbieLoad, feeds[0].newbie);
  }

  /** A wallet settled from the store another wallet's run leaves is
      settled from the store before that run: the run does not touch it. */
  lemma NewbieSettledPastOther(s: Store, other: string, newbieLoad: int, otherFeed: NewbieFeed, r: Store, x: string, feed: NewbieFeed)
    requires x != other
    requires NewbieSettled(RunNewbieWallet(s, other, None, newbieLoad, otherFeed).store, r, x, newbieLoad, feed)
    ensures NewbieSettled(s, r, x, newbieLoad, feed)
  {
    var s1 := RunNewbieWallet(s, other, None, newbieLoad, otherFeed).store;
    NewbieStepFrame(s, other, newbieLoad, otherFeed, x);
    SameForSubjectTrans(s, s1, s1, x);
    NewbieSettledTransfer(s1, s, r, r, x, newbieLoad, feed);
  }

  /** A later wallet of the milestone half, settled by the rest of the
      half, is settled by the whole half. */
  lemma NewbieForWalletsLater(s: Store, wallets: seq<string>, newbieLoad: int, feeds: seq<WalletFeed>, x: string, feed: NewbieFeed)
    requires |feeds| == |wallets| > 0 && x != wallets[0]
    requires NewbieSettled(RunNewbieWallet(s, wallets[0], None, newbieLoad, feeds[0].newbie).store,
                           NewbieForWallets(RunNewbieWallet(s, wallets[0], None, newbieLoad, feeds[0].newbie).store, wallets[1..], newbieLoad, feeds[1..]),
                           x, newbieLoad, feed)
    ensures NewbieSettled(s, NewbieForWallets(s, wallets, newbieLoad, feeds), x, newbieLoad, feed)
  {
    var s1 := RunNewbieWallet(s, wallets[0], None, newbieLoad, feeds[0].newbie).store;
    NewbieForWalletsUnfold(s, wallets, newbieLoad, feeds);
    NewbieSettledPastOther(s, wallets[0], newbieLoad, feeds[0].newbie, NewbieForWallets(s1, wallets[1..], newbieLoad, feeds[1..]), x, feed);
  }

  /** In the milestone half, each listed wallet's milestone records end as
      its own milestone lookups decide, from the records it had before. */
  lemma {:induction false} NewbieForWalletsSettles(s: Store, wallets: seq<string>, newbieLoad: int, feeds: seq<WalletFeed>, i: nat)
    requires |feeds| == |wallets| && Distinct(wallets) && i < |wallets|
    ensures NewbieSettled(s, NewbieForWallets(s, wallets, newbieLoad, feeds), wallets[i], newbieLoad, feeds[i].newbie)
    decreases |wallets|
  {
    DistinctTail(wallets);
    if i == 0 {
      NewbieForWalletsHead(s, wallets, newbieLoad, feeds);
    } else {
      var s1 := RunNewbieWallet(s, wallets[0], None, newbieLoad, feeds[0].newbie).store;
      var x, feed := wallets[i], feeds[i].newbie;
      assert wallets[1..][i - 1] == x && feeds[1..][i - 1].newbie == feed;
      NewbieForWalletsSettles(s1, wallets[1..], newbieLoad, feeds[1..], i - 1);
      NewbieForWalletsLater(s, wallets, newbieLoad, feeds, x, feed);
    }
  }

  /** `updateQuestProgress` for each wallet it lists: the wallet's four daily
      records and its ten milestone records end as its own lookups decide;
      records of subjects outside the list stay as they were. */
  lemma UpdateQuestProgressSettles(w: World, wallets: seq<string>, dailyLoad: int, newbieLoad: int, feeds: seq<WalletFeed>, i: nat)
    requires forall x :: x in wallets <==> x in SubjectsOf(w.walletDaily)
    requires |feeds| == |wallets| && Distinct(wallets) && i < |wallets|
    ensures var r := UpdateQuestProgress(w, wallets, dailyLoad, newbieLoad, feeds);
      && DailySettled(w.walletDaily, r.walletDaily, wallets[i], feeds[i].daily)
      && NewbieSettled(w.walletMilestone, r.walletMilestone, wallets[i], newbieLoad, feeds[i].newbie)
    ensures forall x :: x !in wallets ==>
      && SameForSubject(w.walletDaily, UpdateQuestProgress(w, wallets, dailyLoad, newbieLoad, feeds).walletDaily, x)
      && SameForSubject(w.walletMilestone, UpdateQuestProgress(w, wallets, dailyLoad, newbieLoad, feeds).walletMilestone, x)
  {
    DailyForWalletsSettles(w.walletDaily, wallets, dailyLoad, feeds, i);
    NewbieForWalletsSettles(w.walletMilestone, wallets, newbieLoad, feeds, i);
    forall x | x !in wallets
      ensures && SameForSubject(w.walletDaily, UpdateQuestProgress(w, wallets, dailyLoad, newbieLoad, feeds).walletDaily, x)
              && SameForSubject(w.walletMilestone, UpdateQuestProgress(w, wallets, dailyLoad, newbieLoad, feeds).walletMilestone, x)
    {
      DailyForWalletsFrame(w.walletDaily, wallets, dailyLoad, feeds, x);
      NewbieForWalletsFrame(w.walletMilestone, wallets, newbieLoad, feeds, x);
    }
  }

  // ---------------------------------------------------------------------
  // Points across periods

  /** Daily periods of one record: each starts with the reset and then sees
      the verdicts of that day's runs. */
  function Periods(s: Store, k: Key, days: seq<seq<bool>>, reward: nat, name: Option<string>): Store
    decreases |days|
  {
    if |days| == 0 then s
    else Periods(SettleEach(ClearDone(s), k, days[0], reward, name), k, days[1..], reward, name)
  }

  /** After the reset a key is not done and holds the points it held. */
  lemma ClearDoneOpens(s: Store, k: Key)
    ensures !IsDone(ClearDone(s), k) && PointsAt(ClearDone(s), k) == PointsAt(s, k)
  {
  }

  lemma Distribute(a: nat, b: nat, c: nat)
    ensures a * b + a * c == a * (b + c)
  {
  }

  /** The number of days with at least one true verdict. */
  function DaysCompleted(days: seq<seq<bool>>): nat
    decreases |days|
  {
    if |days| == 0 then 0 else (if true in days[0] then 1 else 0) + DaysCompleted(days[1..])
  }

  /** After the reset, a qualifying verdict earns the reward again: over a
      sequence of days a record gains the reward once for every day on which
      some run completed it, never more. */
  lemma {:induction false} PointsAccruePerPeriod(s: Store, k: Key, days: seq<seq<bool>>, reward: nat, name: Option<string>)
    ensures PointsAt(Periods(s, k, days, reward, name), k) == PointsAt(s, k) + reward * DaysCompleted(days)
    decreases |days|
  {
    if |days| > 0 {
      var cleared := ClearDone(s);
      ClearDoneOpens(s, k);
      var settled := SettleEach(cleared, k, days[0], reward, name);
      RewardAtMostOnce(cleared, k, days[0], reward, name);
      var first := if true in days[0] then 1 else 0;
      assert PointsAt(settled, k) == PointsAt(s, k) + reward * first;
      PointsAccruePerPeriod(settled, k, days[1..], reward, name);
      assert Periods(s, k, days, reward, name) == Periods(settled, k, days[1..], reward, name);
      assert DaysCompleted(days) == first + DaysCompleted(days[1..]);
      Distribute(reward, first, DaysCompleted(days[1..]));
    }
  }

  /** A faucet answer with one record from `wallet`, and no other lookup
      answered. */
  function FaucetOnly(wallet: string, others: seq<Event>): DailyFeed
  {
    DailyFeed(Failed, Fetched(others + [Event(wallet, Undefined, Undefined, Undefined)]), Failed, Failed)
  }

  /** A wallet with no claim_energy record claims energy: the record is
      created done with 3 points. A second run the same day, whatever it
      sees, changes nothing. After the reset it is not done and still holds
      3 points; another claim brings it to 6. */
  lemma FaucetAcrossReset(w: World, wallet: string, load: int, e1: seq<Event>, e2: DailyFeed, e3: seq<Event>)
    requires Key(wallet, ClaimEnergy) !in w.walletDaily
    ensures var k := Key(wallet, ClaimEnergy);
      var s1 := RunDailyChecks(w.walletDaily, wallet, load, FaucetOnly(wallet, e1)).store;
      var s2 := RunDailyChecks(s1, wallet, load, e2).store;
      var s3 := ResetQuestProgress(w.(walletDaily := s2)).walletDaily;
      var s4 := RunDailyChecks(s3, wallet, load, FaucetOnly(wallet, e3)).store;
      && IsDone(s1, k) && PointsAt(s1, k) == 3
      && IsDone(s2, k) && PointsAt(s2, k) == 3
      && k in s3 && !IsDone(s3, k) && PointsAt(s3, k) == 3
      && IsDone(s4, k) && PointsAt(s4, k) == 6
  {
    var k := Key(wallet, ClaimEnergy);
    var s1 := RunDailyChecks(w.walletDaily, wallet, load, FaucetOnly(wallet, e1)).store;
    var s2 := RunDailyChecks(s1, wallet, load, e2).store;
    var s3 := ResetQuestProgress(w.(walletDaily := s2)).walletDaily;
    var s4 := RunDailyChecks(s3, wallet, load, FaucetOnly(wallet, e3)).store;
    var es1 := e1 + [Event(wallet, Undefined, Undefined, Undefined)];
    assert es1[|es1| - 1].suiSender == wallet;
    RunDailySettles(w.walletDaily, wallet, wallet, None, WalletDailyWindow(load), FaucetOnly(wallet, e1));
    RunDailySettles(s1, wallet, wallet, None, WalletDailyWindow(load), e2);
    var es3 := e3 + [Event(wallet, Undefined, Undefined, Undefined)];
    assert es3[|es3| - 1].suiSender == wallet;
    RunDailySettles(s3, wallet, wallet, None, WalletDailyWindow(load), FaucetOnly(wallet, e3));
  }
}

=== FILE: daily_quests.dfy ===
/** The four per-subject daily checks, shared by the wallet and the NFT
    daily services. A check is keyed by `subject` (the wallet, or the NFT
    id), asks the indexer about `sender` (the owning wallet) over window `w`,
    and stores `name` if it creates the record. The NFT service calls them
    with its per-call `DailyWindow(now)` and the player's name; the wallet
    service (module WalletDaily) with its frozen window and no name. */
module DailyQuests {
  import opened Values
  import opened Progress
  import opened Rewards
  import opened Predicates
  import opened Windows
  import opened Checks

  /** The verdict of a check from the indexer's answer; a failed request has
      none. */
  function VerdictOf(resp: Fetch<seq<Event>>, qualifies: seq<Event> -> bool): (v: Fetch<bool>)
    ensures v.Fetched? == resp.Fetched?
    ensures v.Fetched? ==> v.data == qualifies(resp.data)
  {
    match resp
    case Failed => Failed
    case Fetched(es) => Fetched(qualifies(es))
  }

  function CraftStep(subject: string, sender: string, w: Window, resp: Fetch<seq<Event>>): Step
  {
    Step(Key(subject, CraftShips), Query(ShipProductionCompleted, Some(w), sender),
         VerdictOf(resp, CraftDone), DailyReward(CraftShips))
  }

  function FaucetStep(subject: string, sender: string, w: Window, resp: Fetch<seq<Event>>): Step
  {
    Step(Key(subject, ClaimEnergy), Query(FaucetRequested, Some(w), sender),
         VerdictOf(resp, es => Claimed(es, sender)), DailyReward(ClaimEnergy))
  }

  function PveStep(subject: string, sender: string, w: Window, resp: Fetch<seq<Event>>): Step
  {
    Step(Key(subject, BattlePve), Query(PlayerVsEnvironment, Some(w), sender),
         VerdictOf(resp, PveDone), DailyReward(BattlePve))
  }

  function PvpStep(subject: string, sender: string, w: Window, resp: Fetch<seq<Event>>): Step
  {
    Step(Key(subject, BattlePvp), Query(PlayerVsPlayer, Some(w), sender),
         VerdictOf(resp, es => PvpWon(es, sender)), DailyReward(BattlePvp))
  }

  /** `checkCraftForDailyQuest(Nft)`: done with at least 4 ship-production
      records; worth 5 points. */
  function CheckCraft(s: Store, subject: string, sender: string, name: Option<string>, w: Window, resp: Fetch<seq<Event>>): (o: Outcome)
    ensures o.lookups == if IsDone(s, Key(subject, CraftShips)) then [] else [Query(ShipProductionCompleted, Some(w), sender)]
    ensures resp.Failed? ==> o.store == s
    ensures resp.Fetched? ==> Reconciled(s, o.store, Key(subject, CraftShips), 5, |resp.data| >= 4, name)
    ensures SameExcept(s, o.store, Key(subject, CraftShips))
    ensures Grows(s, o.store)
  {
    Evaluate(s, name, CraftStep(subject, sender, w, resp))
  }

  /** `checkFaucetForDailyQuest(Nft)`: done when some faucet record was sent by
      the queried address; worth 3 points. */
  function CheckFaucet(s: Store, subject: string, sender: string, name: Option<string>, w: Window, resp: Fetch<seq<Event>>): (o: Outcome)
    ensures o.lookups == if IsDone(s, Key(subject, ClaimEnergy)) then [] else [Query(FaucetRequested, Some(w), sender)]
    ensures resp.Failed? ==> o.store == s
    ensures resp.Fetched? ==> Reconciled(s, o.store, Key(subject, ClaimEnergy), 3,
                                         exists i :: 0 <= i < |resp.data| && resp.data[i].suiSender == sender, name)
    ensures SameExcept(s, o.store, Key(subject, ClaimEnergy))
    ensures Grows(s, o.store)
  {
    Evaluate(s, name, FaucetStep(subject, sender, w, resp))
  }

  /** `checkCombatToPVEForDailyQuest(Nft)`: done with at least 3 events whose
      winner is the number 1; worth 15 points. */
  function CheckPve(s: Store, subject: string, sender: string, name: Option<string>, w: Window, resp: Fetch<seq<Event>>): (o: Outcome)
    ensures o.lookups == if IsDone(s, Key(subject, BattlePve)) then [] else [Query(PlayerVsEnvironment, Some(w), sender)]
    ensures resp.Failed? ==> o.store == s
    ensures resp.Fetched? ==> Reconciled(s, o.store, Key(subject, BattlePve), 15, |Wins(resp.data)| >= 3, name)
    ensures SameExcept(s, o.store, Key(subject, BattlePve))
    ensures Grows(s, o.store)
  {
    Evaluate(s, name, PveStep(subject, sender, w, resp))
  }

  /** `checkCombatToPVPForDailyQuest(Nft)`: done when the queried address won
      some battle, as initiator with winner 1 or as responder with winner 0;
      worth 20 points. */
  function CheckPvp(s: Store, subject: string, sender: string, name: Option<string>, w: Window, resp: Fetch<seq<Event>>): (o: Outcome)
    ensures o.lookups == if IsDone(s, Key(subject, BattlePvp)) then [] else [Query(PlayerVsPlayer, Some(w), sender)]
    ensures resp.Failed? ==> o.store == s
    ensures resp.Fetched? ==> Reconciled(s, o.store, Key(subject, BattlePvp), 20,
                                         exists i :: 0 <= i < |resp.data| && WonBy(resp.data[i], sender), name)
    ensures SameExcept(s, o.store, Key(subject, BattlePvp))
    ensures Grows(s, o.store)
  {
    Evaluate(s, name, PvpStep(subject, sender, w, resp))
  }

  /** The indexer's answers to one subject's four daily lookups. */
  datatype DailyFeed = DailyFeed(craft: Fetch<seq<Event>>, faucet: Fetch<seq<Event>>, pve: Fetch<seq<Event>>, pvp: Fetch<seq<Event>>)

  /** The daily keys of one subject. */
  function DailyKeys(subject: string): set<Key>
  {
    {Key(subject, CraftShips), Key(subject, ClaimEnergy), Key(subject, BattlePve), Key(subject, BattlePvp)}
  }

  /** The four daily checks in the order both services run them: craft,
      faucet, PvE, PvP. */
  function DailySteps(subject: string, sender: string, w: Window, feed: DailyFeed): (steps: seq<Step>)
    ensures |steps| == 4 && DistinctKeys(steps)
    ensures StepKeys(steps) == DailyKeys(subject)
    ensures forall i :: 0 <= i < |steps| ==> steps[i].query.window == Some(w) && steps[i].query.sender == sender
  {
    var steps := [CraftStep(subject, sender, w, feed.craft), FaucetStep(subject, sender, w, feed.faucet),
                  PveStep(subject, sender, w, feed.pve), PvpStep(subject, sender, w, feed.pvp)];
    assert BattlePve[9] != BattlePvp[9];
    assert StepKeys(steps[3..]) == {Key(subject, BattlePvp)} by { assert steps[3..][1..] == []; }
    assert StepKeys(steps[2..]) == {Key(subject, BattlePve), Key(subject, BattlePvp)} by { assert steps[2..][1..] == steps[3..]; }
    assert StepKeys(steps[1..]) == {Key(subject, ClaimEnergy), Key(subject, BattlePve), Key(subject, BattlePvp)} by { assert steps[1..][1..] == steps[2..]; }
    steps
  }

  /** One subject's daily run. Only its four daily records can change,
      records only grow, created records carry `name`, and every lookup is
      about `sender` over `w`. */
  function RunDaily(s: Store, subject: string, sender: string, name: Option<string>, w: Window, feed: DailyFeed): (o: Outcome)
    ensures Grows(s, o.store)
    ensures SameOutside(s, o.store, DailyKeys(subject))
    ensures forall j :: j in o.store && j !in s ==> o.store[j].playerName == name
    ensures forall q :: q in o.lookups ==> q.window == Some(w) && q.sender == sender
    ensures |o.lookups| <= 4
  {
    RunSteps(s, name, DailySteps(subject, sender, w, feed))
  }

  /** The verdict a daily check draws from a successful lookup. */
  predicate Qualifies(resp: Fetch<seq<Event>>, qualifies: seq<Event> -> bool)
  {
    resp.Fetched? && qualifies(resp.data)
  }

  /** Each daily quest of the subject ends done exactly when it was done or
      its own lookup succeeded with a qualifying answer, and gains its reward
      exactly on that transition. */
  lemma RunDailySettles(s: Store, subject: string, sender: string, name: Option<string>, w: Window, feed: DailyFeed)
    ensures var r := RunDaily(s, subject, sender, name, w, feed).store;
      && IsDone(r, Key(subject, CraftShips)) == (IsDone(s, Key(subject, CraftShips)) || Qualifies(feed.craft, CraftDone))
      && IsDone(r, Key(subject, ClaimEnergy)) == (IsDone(s, Key(subject, ClaimEnergy)) || Qualifies(feed.faucet, es => Claimed(es, sender)))
      && IsDone(r, Key(subject, BattlePve)) == (IsDone(s, Key(subject, BattlePve)) || Qualifies(feed.pve, PveDone))
      && IsDone(r, Key(subject, BattlePvp)) == (IsDone(s, Key(subject, BattlePvp)) || Qualifies(feed.pvp, es => PvpWon(es, sender)))
    ensures var r := RunDaily(s, subject, sender, name, w, feed).store;
      && PointsAt(r, Key(subject, CraftShips)) == PointsAt(s, Key(subject, CraftShips))
           + (if !IsDone(s, Key(subject, CraftShips)) && Qualifies(feed.craft, CraftDone) then 5 else 0)
      && PointsAt(r, Key(subject, ClaimEnergy)) == PointsAt(s, Key(subject, ClaimEnergy))
           + (if !IsDone(s, Key(subject, ClaimEnergy)) && Qualifies(feed.faucet, es => Claimed(es, sender)) then 3 else 0)
      && PointsAt(r, Key(subject, BattlePve)) == PointsAt(s, Key(subject, BattlePve))
           + (if !IsDone(s, Key(subject, BattlePve)) && Qualifies(feed.pve, PveDone) then 15 else 0)
      && PointsAt(r, Key(subject, BattlePvp)) == PointsAt(s, Key(subject, BattlePvp))
           + (if !IsDone(s, Key(subject, BattlePvp)) && Qualifies(feed.pvp, es => PvpWon(es, sender)) then 20 else 0)
  {
    var steps := DailySteps(subject, sender, w, feed);
    RunStepsOwnVerdicts(s, name, steps);
    assert steps[0].key == Key(subject, CraftShips);
    assert steps[1].key == Key(subject, ClaimEnergy);
    assert steps[2].key == Key(subject, BattlePve);
    assert steps[3].key == Key(subject, BattlePvp);
  }
}

=== FILE: leaderboard.dfy ===
/** The merge behind `/get-names-and-points`: per-subject point sums of the
    daily and the milestone family, joined by subject. The `$group`
    aggregations are inputs: one group per distinct subject, carrying the sum
    of its records' points and the name of its first record. */
module Leaderboard {
  import opened Values

  /** One result row of `$group`: subject, summed points, first name. */
  datatype Group = Group(id: string, total: nat, name: Option<string>)

  /** One row of the answer. */
  datatype Entry = Entry(id: string, total: nat, name: Option<string>)

  /** `$group` yields each subject once. */
  predicate UniqueGroups(gs: seq<Group>)
  {
    forall i, j :: 0 <= i < j < |gs| ==> gs[i].id != gs[j].id
  }

  predicate UniqueEntries(es: seq<Entry>)
  {
    forall i, j :: 0 <= i < j < |es| ==> es[i].id != es[j].id
  }

  function GroupIds(gs: seq<Group>): set<string>
  {
    set i | 0 <= i < |gs| :: gs[i].id
  }

  function EntryIds(es: seq<Entry>): set<string>
  {
    set i | 0 <= i < |es| :: es[i].id
  }

  /** `Array.prototype.find` by subject: the first group with that id. */
  function FindGroup(gs: seq<Group>, id: string): (r: Option<Group>)
    ensures r.None? <==> id !in GroupIds(gs)
    ensures r.Some? ==> r.value.id == id && exists i :: 0 <= i < |gs| && gs[i] == r.value && forall j :: 0 <= j < i ==> gs[j].id != id
    decreases |gs|
  {
    if |gs| == 0 then None
    else if gs[0].id == id then Some(gs[0])
    else
      var r := FindGroup(gs[1..], id);
      GroupIdsCons(gs);
      if r.Some? then
        var i :| 0 <= i < |gs[1..]| && gs[1..][i] == r.value && forall j :: 0 <= j < i ==> gs[1..][j].id != id;
        assert gs[i + 1] == r.value;
        assert forall j :: 0 <= j < i + 1 ==> gs[j].id != id by {
          forall j | 0 <= j < i + 1 ensures gs[j].id != id {
            if j > 0 { assert gs[j] == gs[1..][j - 1]; }
          }
        }
        r
      else r
  }

  /** Points of the group with that id, or 0 when there is none. */
  function TotalFor(gs: seq<Group>, id: string): nat
  {
    match FindGroup(gs, id)
    case None => 0
    case Some(g) => g.total
  }

  /** The `dailyPoints.map(...)` step: one row per daily group, in order,
      adding the matching milestone group's points, and naming it by the
      daily name when truthy, else the milestone group's name, else null. */
  function CombineDaily(daily: seq<Group>, newbie: seq<Group>): (r: seq<Entry>)
    ensures |r| == |daily|
    ensures forall i :: 0 <= i < |r| ==> r[i].id == daily[i].id
    ensures forall i :: 0 <= i < |r| ==> r[i].total == daily[i].total + TotalFor(newbie, daily[i].id)
    ensures forall i :: 0 <= i < |r| ==> Truthy(daily[i].name) ==> r[i].name == daily[i].name
    ensures forall i :: 0 <= i < |r| ==> !Truthy(daily[i].name) && daily[i].id !in GroupIds(newbie) ==> r[i].name == None
    ensures forall i :: 0 <= i < |r| ==> !Truthy(daily[i].name) && daily[i].id in GroupIds(newbie) ==> r[i].name == FindGroup(newbie, daily[i].id).value.name
  {
    seq(|daily|, i requires 0 <= i < |daily| =>
      var n := FindGroup(newbie, daily[i].id);
      Entry(daily[i].id, daily[i].total + (if n.Some? then n.value.total else 0),
            OrElse(daily[i].name, if n.Some? then n.value.name else None)))
  }

  /** Whether some row already has the id (`combined.some(...)`). */
  predicate Listed(es: seq<Entry>, id: string)
  {
    exists i :: 0 <= i < |es| && es[i].id == id
  }

  /** The `newbiePoints.forEach(...)` step: each milestone group whose id is
      not yet listed is appended with its own points and name; the check
      sees the rows appended so far. */
  function AppendNewbie(acc: seq<Entry>, newbie: seq<Group>): (r: seq<Entry>)
    ensures |acc| <= |r| && r[..|acc|] == acc
    ensures EntryIds(r) == EntryIds(acc) + GroupIds(newbie)
    ensures forall i :: |acc| <= i < |r| ==> r[i].id in GroupIds(newbie) && r[i].id !in EntryIds(acc)
    ensures forall i :: |acc| <= i < |r| ==> FindGroup(newbie, r[i].id) == Some(Group(r[i].id, r[i].total, r[i].name))
    decreases |newbie|
  {
    if |newbie| == 0 then acc
    else
      var g := newbie[0];
      var acc' := if Listed(acc, g.id) then acc else acc + [Entry(g.id, g.total, g.name)];
      assert EntryIds(acc') == EntryIds(acc) + {g.id} by {
        if !Listed(acc, g.id) {
          assert acc'[|acc|].id == g.id;
          forall x | x in EntryIds(acc') ensures x in EntryIds(acc) + {g.id} {
            var i :| 0 <= i < |acc'| && acc'[i].id == x;
            if i < |acc| { assert acc'[i] == acc[i]; }
          }
          forall x | x in EntryIds(acc) ensures x in EntryIds(acc') {
            var i :| 0 <= i < |acc| && acc[i].id == x;
            assert acc'[i] == acc[i];
          }
        } else {
          var i :| 0 <= i < |acc| && acc[i].id == g.id;
        }
      }
      var r := AppendNewbie(acc', newbie[1..]);
      GroupIdsCons(newbie);
      assert r[..|acc|] == acc by {
        assert r[..|acc'|] == acc';
        assert acc'[..|acc|] == acc;
      }
      assert forall i :: |acc| <= i < |r| ==> r[i].id in GroupIds(newbie) && r[i].id !in EntryIds(acc) by {
        forall i | |acc| <= i < |r| ensures r[i].id in GroupIds(newbie) && r[i].id !in EntryIds(acc) {
          if i < |acc'| {
            assert r[i] == acc'[i];
          }
        }
      }
      assert forall i :: |acc| <= i < |r| ==> FindGroup(newbie, r[i].id) == Some(Group(r[i].id, r[i].total, r[i].name)) by {
        forall i | |acc| <= i < |r| ensures FindGroup(newbie, r[i].id) == Some(Group(r[i].id, r[i].total, r[i].name)) {
          if i < |acc'| {
            assert r[i] == acc'[i] == Entry(g.id, g.total, g.name);
          } else {
            assert r[i].id != g.id;
          }
        }
      }
      r
  }

  lemma GroupIdsCons(gs: seq<Group>)
    requires |gs| > 0
    ensures GroupIds(gs) == {gs[0].id} + GroupIds(gs[1..])
  {
    forall x | x in GroupIds(gs) ensures x in {gs[0].id} + GroupIds(gs[1..]) {
      var i :| 0 <= i < |gs| && gs[i].id == x;
      if i > 0 { assert gs[1..][i - 1] == gs[i]; }
    }
    forall x | x in GroupIds(gs[1..]) ensures x in GroupIds(gs) {
      var i :| 0 <= i < |gs[1..]| && gs[1..][i].id == x;
      assert gs[i + 1] == gs[1..][i];
    }
  }

  /** The answer for one subject kind: the daily rows, then the
      milestone-only rows. */
  function MergeFamilies(daily: seq<Group>, newbie: seq<Group>): (r: seq<Entry>)
    requires UniqueGroups(daily)
    ensures EntryIds(r) == GroupIds(daily) + GroupIds(newbie)
    ensures UniqueEntries(r)
    ensures |daily| <= |r|
    ensures forall i :: 0 <= i < |daily| ==> r[i].id == daily[i].id && r[i].total == daily[i].total + TotalFor(newbie, daily[i].id)
    ensures forall i :: |daily| <= i < |r| ==> r[i].id !in GroupIds(daily) && FindGroup(newbie, r[i].id) == Some(Group(r[i].id, r[i].total, r[i].name))
  {
    var c := CombineDaily(daily, newbie);
    assert EntryIds(c) == GroupIds(daily) by {
      forall x | x in GroupIds(daily) ensures x in EntryIds(c) {
        var i :| 0 <= i < |daily| && daily[i].id == x;
        assert c[i].id == x;
      }
    }
    AppendNewbieUnique(c, newbie);
    AppendNewbie(c, newbie)
  }

  /** `[...combinedWalletPoints, ...combinedNftPoints]`. */
  function Leaderboard(walletDaily: seq<Group>, walletNewbie: seq<Group>, nftDaily: seq<Group>, nftNewbie: seq<Group>): (r: seq<Entry>)
    requires UniqueGroups(walletDaily) && UniqueGroups(nftDaily)
    ensures EntryIds(r) == GroupIds(walletDaily) + GroupIds(walletNewbie) + GroupIds(nftDaily) + GroupIds(nftNewbie)
  {
    var w := MergeFamilies(walletDaily, walletNewbie);
    var n := MergeFamilies(nftDaily, nftNewbie);
    EntryIdsConcat(w, n);
    w + n
  }

  lemma EntryIdsConcat(a: seq<Entry>, b: seq<Entry>)
    ensures EntryIds(a + b) == EntryIds(a) + EntryIds(b)
  {
    forall x | x in EntryIds(a + b) ensures x in EntryIds(a) + EntryIds(b) {
      var i :| 0 <= i < |a + b| && (a + b)[i].id == x;
      if i >= |a| { assert (a + b)[i] == b[i - |a|]; } else { assert (a + b)[i] == a[i]; }
    }
    forall x | x in EntryIds(a) ensures x in EntryIds(a + b) {
      var i :| 0 <= i < |a| && a[i].id == x;
      assert (a + b)[i] == a[i];
    }
    forall x | x in EntryIds(b) ensures x in EntryIds(a + b) {
      var i :| 0 <= i < |b| && b[i].id == x;
      assert (a + b)[|a| + i] == b[i];
    }
  }

  /** Appending only unlisted ids keeps the rows unique, whatever the
      milestone groups are. */
  lemma {:induction false} AppendNewbieUnique(acc: seq<Entry>, newbie: seq<Group>)
    requires UniqueEntries(acc)
    ensures UniqueEntries(AppendNewbie(acc, newbie))
    decreases |newbie|
  {
    if |newbie| > 0 {
      var g := newbie[0];
      if Listed(acc, g.id) {
        AppendNewbieUnique(acc, newbie[1..]);
      } else {
        var acc' := acc + [Entry(g.id, g.total, g.name)];
        assert UniqueEntries(acc') by {
          forall i, j | 0 <= i < j < |acc'| ensures acc'[i].id != acc'[j].id {
            if j == |acc| {
              assert acc'[i] == acc[i];
            } else {
              assert acc'[i] == acc[i] && acc'[j] == acc[j];
            }
          }
        }
        AppendNewbieUnique(acc', newbie[1..]);
      }
    }
  }

  // ---------------------------------------------------------------------
  // Totals

  function GroupSum(gs: seq<Group>): nat
    decreases |gs|
  {
    if |gs| == 0 then 0 else gs[0].total + GroupSum(gs[1..])
  }

  function EntrySum(es: seq<Entry>): nat
    decreases |es|
  {
    if |es| == 0 then 0 else es[0].total + EntrySum(es[1..])
  }

  /** Points of the groups whose id is in `ids`. */
  function SumIn(gs: seq<Group>, ids: set<string>): nat
    decreases |gs|
  {
    if |gs| == 0 then 0 else (if gs[0].id in ids then gs[0].total else 0) + SumIn(gs[1..], ids)
  }

  /** Points of the groups whose id is not in `ids`. */
  function SumOut(gs: seq<Group>, ids: set<string>): nat
    decreases |gs|
  {
    if |gs| == 0 then 0 else (if gs[0].id in ids then 0 else gs[0].total) + SumOut(gs[1..], ids)
  }

  lemma {:induction false} EntrySumConcat(a: seq<Entry>, b: seq<Entry>)
    ensures EntrySum(a + b) == EntrySum(a) + EntrySum(b)
    decreases |a|
  {
    if |a| > 0 {
      assert (a + b)[1..] == a[1..] + b;
      EntrySumConcat(a[1..], b);
    } else {
      assert a + b == b;
    }
  }

  lemma {:induction false} SumInOut(gs: seq<Group>, ids: set<string>)
    ensures SumIn(gs, ids) + SumOut(gs, ids) == GroupSum(gs)
    decreases |gs|
  {
    if |gs| > 0 {
      SumInOut(gs[1..], ids);
    }
  }

  lemma {:induction false} SumInUnion(gs: seq<Group>, ids: set<string>, x: string)
    requires x !in ids
    ensures SumIn(gs, ids + {x}) == SumIn(gs, ids) + SumIn(gs, {x})
    decreases |gs|
  {
    if |gs| > 0 {
      SumInUnion(gs[1..], ids, x);
    }
  }

  /** With unique groups, the points of one id are that group's points. */
  lemma {:induction false} SumInSingle(gs: seq<Group>, x: string)
    requires UniqueGroups(gs)
    ensures SumIn(gs, {x}) == TotalFor(gs, x)
    decreases |gs|
  {
    if |gs| > 0 {
      assert UniqueGroups(gs[1..]) by {
        forall i, j | 0 <= i < j < |gs[1..]| ensures gs[1..][i].id != gs[1..][j].id {
          assert gs[1..][i] == gs[i + 1] && gs[1..][j] == gs[j + 1];
        }
      }
      SumInSingle(gs[1..], x);
      if gs[0].id == x {
        assert x !in GroupIds(gs[1..]) by {
          forall i | 0 <= i < |gs[1..]| ensures gs[1..][i].id != x {
            assert gs[1..][i] == gs[i + 1];
          }
        }
        SumInAbsent(gs[1..], {x});
      }
    }
  }

  lemma {:induction false} SumInAbsent(gs: seq<Group>, ids: set<string>)
    requires ids !! GroupIds(gs)
    ensures SumIn(gs, ids) == 0
    decreases |gs|
  {
    if |gs| > 0 {
      GroupIdsCons(gs);
      SumInAbsent(gs[1..], ids);
    }
  }

  lemma {:induction false} SumOutIgnores(gs: seq<Group>, ids: set<string>, x: string)
    requires x !in GroupIds(gs)
    ensures SumOut(gs, ids + {x}) == SumOut(gs, ids)
    decreases |gs|
  {
    if |gs| > 0 {
      GroupIdsCons(gs);
      SumOutIgnores(gs[1..], ids, x);
    }
  }

  /** The daily rows hold the daily points plus the points of the milestone
      groups they matched. */
  lemma {:induction false} CombineDailySum(daily: seq<Group>, newbie: seq<Group>)
    requires UniqueGroups(daily) && UniqueGroups(newbie)
    ensures EntrySum(CombineDaily(daily, newbie)) == GroupSum(daily) + SumIn(newbie, GroupIds(daily))
    decreases |daily|
  {
    if |daily| > 0 {
      var c := CombineDaily(daily, newbie);
      assert c[1..] == CombineDaily(daily[1..], newbie);
      assert UniqueGroups(daily[1..]) by {
        forall i, j | 0 <= i < j < |daily[1..]| ensures daily[1..][i].id != daily[1..][j].id {
          assert daily[1..][i] == daily[i + 1] && daily[1..][j] == daily[j + 1];
        }
      }
      CombineDailySum(daily[1..], newbie);
      GroupIdsCons(daily);
      assert daily[0].id !in GroupIds(daily[1..]) by {
        forall i | 0 <= i < |daily[1..]| ensures daily[1..][i].id != daily[0].id {
          assert daily[1..][i] == daily[i + 1];
        }
      }
      SumInUnion(newbie, GroupIds(daily[1..]), daily[0].id);
      SumInSingle(newbie, daily[0].id);
      assert GroupIds(daily) == GroupIds(daily[1..]) + {daily[0].id};
      assert c[0].total == daily[0].total + TotalFor(newbie, daily[0].id);
      assert EntrySum(c) == c[0].total + EntrySum(c[1..]);
    } else {
      SumInAbsent(newbie, GroupIds(daily));
    }
  }

  /** The appended rows hold the points of the milestone groups no row
      listed yet. */
  lemma {:induction false} AppendNewbieSum(acc: seq<Entry>, newbie: seq<Group>)
    requires UniqueGroups(newbie)
    ensures EntrySum(AppendNewbie(acc, newbie)) == EntrySum(acc) + SumOut(newbie, EntryIds(acc))
    decreases |newbie|
  {
    if |newbie| > 0 {
      var g := newbie[0];
      assert UniqueGroups(newbie[1..]) by {
        forall i, j | 0 <= i < j < |newbie[1..]| ensures newbie[1..][i].id != newbie[1..][j].id {
          assert newbie[1..][i] == newbie[i + 1] && newbie[1..][j] == newbie[j + 1];
        }
      }
      if Listed(acc, g.id) {
        var i :| 0 <= i < |acc| && acc[i].id == g.id;
        assert g.id in EntryIds(acc);
        AppendNewbieSum(acc, newbie[1..]);
      } else {
        var e := Entry(g.id, g.total, g.name);
        var acc' := acc + [e];
        EntrySumConcat(acc, [e]);
        assert EntrySum([e]) == g.total;
        EntryIdsConcat(acc, [e]);
        assert EntryIds([e]) == {g.id};
        assert g.id !in GroupIds(newbie[1..]) by {
          forall i | 0 <= i < |newbie[1..]| ensures newbie[1..][i].id != g.id {
            assert newbie[1..][i] == newbie[i + 1];
          }
        }
        SumOutIgnores(newbie[1..], EntryIds(acc), g.id);
        AppendNewbieSum(acc', newbie[1..]);
      }
    }
  }

  /** With `$group`'s one group per subject, the rows of one subject kind
      hold exactly the points of both families: matched subjects count both
      sums once, and no milestone sum is counted twice or dropped. */
  lemma MergeFamiliesTotal(daily: seq<Group>, newbie: seq<Group>)
    requires UniqueGroups(daily) && UniqueGroups(newbie)
    ensures EntrySum(MergeFamilies(daily, newbie)) == GroupSum(daily) + GroupSum(newbie)
  {
    var c := CombineDaily(daily, newbie);
    assert EntryIds(c) == GroupIds(daily) by {
      forall x | x in GroupIds(daily) ensures x in EntryIds(c) {
        var i :| 0 <= i < |daily| && daily[i].id == x;
        assert c[i].id == x;
      }
    }
    CombineDailySum(daily, newbie);
    AppendNewbieSum(c, newbie);
    SumInOut(newbie, GroupIds(daily));
  }

  /** The whole answer's points are the sum over all four families. */
  lemma LeaderboardTotal(walletDaily: seq<Group>, walletNewbie: seq<Group>, nftDaily: seq<Group>, nftNewbie: seq<Group>)
    requires UniqueGroups(walletDaily) && UniqueGroups(walletNewbie) && UniqueGroups(nftDaily) && UniqueGroups(nftNewbie)
    ensures EntrySum(Leaderboard(walletDaily, walletNewbie, nftDaily, nftNewbie))
         == GroupSum(walletDaily) + GroupSum(walletNewbie) + GroupSum(nftDaily) + GroupSum(nftNewbie)
  {
    MergeFamiliesTotal(walletDaily, walletNewbie);
    MergeFamiliesTotal(nftDaily, nftNewbie);
    EntrySumConcat(MergeFamilies(walletDaily, walletNewbie), MergeFamilies(nftDaily, nftNewbie));
  }
}

=== FILE: milestones.dfy ===
/** The milestone (newbie) services: ten one-time quests, checked in a fixed
    order. The checks are shared by the NFT service (keyed by NFT id, asking
    about the owning wallet) and the wallet service (keyed and asked by the
    wallet). A milestone record's `done` is its `completed` flag, which no
    code ever clears. */
module Milestones {
  import opened Values
  import opened Progress
  import opened Rewards
  import opened Predicates
  import opened Windows
  import opened Checks

  /** The quest-statistics endpoint of a milestone: `/quests/<name>`. */
  function StatPath(quest: string): string
  {
    "/quests/" + quest
  }

  function CountStep(subject: string, sender: string, quest: string, required: int, resp: Fetch<JsValue>): Step
  {
    Step(Key(subject, quest), Query(QuestStat(StatPath(quest)), None, sender),
         if resp.Fetched? then Fetched(CountReached(resp.data, required)) else Failed, MilestoneReward(quest))
  }

  function FlagStep(subject: string, sender: string, quest: string, resp: Fetch<JsValue>): Step
  {
    Step(Key(subject, quest), Query(QuestStat(StatPath(quest)), None, sender),
         if resp.Fetched? then Fetched(FlagSet(resp.data)) else Failed, MilestoneReward(quest))
  }

  function First4CraftStep(subject: string, sender: string, w: Window, resp: Fetch<seq<Event>>): Step
  {
    Step(Key(subject, First4Craft), Query(ShipProductionCompleted, Some(w), sender),
         if resp.Fetched? then Fetched(First4CraftDone(resp.data)) else Failed, MilestoneReward(First4Craft))
  }

  function FirstPveWinStep(subject: string, sender: string, w: Window, resp: Fetch<seq<Event>>): Step
  {
    Step(Key(subject, FirstPveWin), Query(PlayerVsEnvironment, Some(w), sender),
         if resp.Fetched? then Fetched(FirstPveWinDone(resp.data)) else Failed, MilestoneReward(FirstPveWin))
  }

  /** `checkQuestAPI`: the quest's counter, compared with JavaScript `>=`
      against `required`; the reward comes from the milestone table. */
  function CheckCount(s: Store, subject: string, sender: string, name: Option<string>, quest: string, required: int, resp: Fetch<JsValue>): (o: Outcome)
    ensures o.lookups == if IsDone(s, Key(subject, quest)) then [] else [Query(QuestStat("/quests/" + quest), None, sender)]
    ensures resp.Failed? ==> o.store == s
    ensures resp.Fetched? ==> Reconciled(s, o.store, Key(subject, quest), MilestoneReward(quest), AtLeast(resp.data, required), name)
    ensures SameExcept(s, o.store, Key(subject, quest))
    ensures Grows(s, o.store)
  {
    Evaluate(s, name, CountStep(subject, sender, quest, required, resp))
  }

  /** `checkBooleanQuestAPI`: done only when the answer is exactly `true`. */
  function CheckFlag(s: Store, subject: string, sender: string, name: Option<string>, quest: string, resp: Fetch<JsValue>): (o: Outcome)
    ensures o.lookups == if IsDone(s, Key(subject, quest)) then [] else [Query(QuestStat("/quests/" + quest), None, sender)]
    ensures resp.Failed? ==> o.store == s
    ensures resp.Fetched? ==> Reconciled(s, o.store, Key(subject, quest), MilestoneReward(quest), resp.data == Bool(true), name)
    ensures SameExcept(s, o.store, Key(subject, quest))
    ensures Grows(s, o.store)
  {
    Evaluate(s, name, FlagStep(subject, sender, quest, resp))
  }

  /** `checkFirst4Craft`: at least 4 ship-production records in the window;
      worth 10 points. */
  function CheckFirst4Craft(s: Store, subject: string, sender: string, name: Option<string>, w: Window, resp: Fetch<seq<Event>>): (o: Outcome)
    ensures o.lookups == if IsDone(s, Key(subject, First4Craft)) then [] else [Query(ShipProductionCompleted, Some(w), sender)]
    ensures resp.Failed? ==> o.store == s
    ensures resp.Fetched? ==> Reconciled(s, o.store, Key(subject, First4Craft), 10, |resp.data| >= 4, name)
    ensures SameExcept(s, o.store, Key(subject, First4Craft))
    ensures Grows(s, o.store)
  {
    Evaluate(s, name, First4CraftStep(subject, sender, w, resp))
  }

  /** `checkFirstPveWin`: at least one event whose winner is the number 1;
      worth 15 points. */
  function CheckFirstPveWin(s: Store, subject: string, sender: string, name: Option<string>, w: Window, resp: Fetch<seq<Event>>): (o: Outcome)
    ensures o.lookups == if IsDone(s, Key(subject, FirstPveWin)) then [] else [Query(PlayerVsEnvironment, Some(w), sender)]
    ensures resp.Failed? ==> o.store == s
    ensures resp.Fetched? ==> Reconciled(s, o.store, Key(subject, FirstPveWin), 15, |Wins(resp.data)| >= 1, name)
    ensures SameExcept(s, o.store, Key(subject, FirstPveWin))
    ensures Grows(s, o.store)
  {
    Evaluate(s, name, FirstPveWinStep(subject, sender, w, resp))
  }

  /** `checkWalletAndIslandQuests`: no done pre-check, the players lookup is
      always made. A failed lookup or an empty list touches no record; a
      non-empty list reconciles walletCreated as true (2 points), then
      claimedIsland as true (5 points) when some player's claimedIsland is
      not null. */
  function CheckWalletAndIsland(s: Store, subject: string, sender: string, name: Option<string>, resp: Fetch<seq<Player>>): (o: Outcome)
    ensures o.lookups == [Query(PlayersByOwner, None, sender)]
    ensures !(resp.Fetched? && HasPlayer(resp.data)) ==> o.store == s
    ensures SameOutside(s, o.store, {Key(subject, WalletCreated), Key(subject, ClaimedIsland)})
    ensures IsDone(o.store, Key(subject, WalletCreated)) == (IsDone(s, Key(subject, WalletCreated)) || (resp.Fetched? && |resp.data| > 0))
    ensures PointsAt(o.store, Key(subject, WalletCreated)) == PointsAt(s, Key(subject, WalletCreated))
         + (if !IsDone(s, Key(subject, WalletCreated)) && resp.Fetched? && |resp.data| > 0 then 2 else 0)
    ensures IsDone(o.store, Key(subject, ClaimedIsland))
         == (IsDone(s, Key(subject, ClaimedIsland)) || (resp.Fetched? && HasPlayer(resp.data) && AnyIslandClaimed(resp.data)))
    ensures PointsAt(o.store, Key(subject, ClaimedIsland)) == PointsAt(s, Key(subject, ClaimedIsland))
         + (if !IsDone(s, Key(subject, ClaimedIsland)) && resp.Fetched? && HasPlayer(resp.data) && AnyIslandClaimed(resp.data) then 5 else 0)
    ensures !(resp.Fetched? && HasPlayer(resp.data) && AnyIslandClaimed(resp.data))
         ==> Get(o.store, Key(subject, ClaimedIsland)) == Get(s, Key(subject, ClaimedIsland))
    ensures forall j :: j in o.store && j !in s ==> o.store[j].playerName == name
    ensures Grows(s, o.store)
  {
    var q := Query(PlayersByOwner, None, sender);
    match resp
    case Failed => Outcome(s, [q])
    case Fetched(players) =>
      if !HasPlayer(players) then Outcome(s, [q])
      else Outcome(RecordPlayers(s, subject, name, players), [q])
  }

  /** The writes for a non-empty players list: walletCreated is reconciled
      as true (2 points), then claimedIsland as true (5 points) when some
      player claimed an island; otherwise claimedIsland's record, present or
      absent, is left as it was. */
  function RecordPlayers(s: Store, subject: string, name: Option<string>, players: seq<Player>): (r: Store)
    ensures SameOutside(s, r, {Key(subject, WalletCreated), Key(subject, ClaimedIsland)})
    ensures IsDone(r, Key(subject, WalletCreated))
    ensures PointsAt(r, Key(subject, WalletCreated)) == PointsAt(s, Key(subject, WalletCreated)) + (if IsDone(s, Key(subject, WalletCreated)) then 0 else 2)
    ensures IsDone(r, Key(subject, ClaimedIsland)) == (IsDone(s, Key(subject, ClaimedIsland)) || AnyIslandClaimed(players))
    ensures PointsAt(r, Key(subject, ClaimedIsland)) == PointsAt(s, Key(subject, ClaimedIsland))
         + (if !IsDone(s, Key(subject, ClaimedIsland)) && AnyIslandClaimed(players) then 5 else 0)
    ensures !AnyIslandClaimed(players) ==> Get(r, Key(subject, ClaimedIsland)) == Get(s, Key(subject, ClaimedIsland))
    ensures forall j :: j in r && j !in s ==> r[j].playerName == name
    ensures Grows(s, r)
  {
    var wc, ci := Key(subject, WalletCreated), Key(subject, ClaimedIsland);
    assert wc != ci;
    var s1 := Settle(s, wc, true, MilestoneReward(WalletCreated), name);
    var s2 := SettleIf(s1, ci, AnyIslandClaimed(players), MilestoneReward(ClaimedIsland), name);
    GrowsTransitive(s, s1, s2);
    SameOutsideStep(s, s, s1, wc, {wc, ci});
    SameOutsideStep(s, s1, s2, ci, {wc, ci});
    s2
  }

  /** A reconcile made only when `confirmed`: a record is written as done
      with `reward` then, and otherwise nothing is written at all (no record
      is created for a false verdict). */
  function SettleIf(s: Store, k: Key, confirmed: bool, reward: nat, name: Option<string>): (r: Store)
    ensures SameExcept(s, r, k)
    ensures Grows(s, r)
    ensures IsDone(r, k) == (IsDone(s, k) || confirmed)
    ensures PointsAt(r, k) == PointsAt(s, k) + (if !IsDone(s, k) && confirmed then reward else 0)
    ensures !confirmed ==> r == s
    ensures forall j :: j in r && j !in s ==> r[j].playerName == name
  {
    if confirmed then Settle(s, k, true, reward, name) else s
  }

  /** The indexer's answers to one subject's milestone lookups. */
  datatype NewbieFeed = NewbieFeed(
    roster: Fetch<JsValue>, wood: Fetch<JsValue>, ore: Fetch<JsValue>, cotton: Fetch<JsValue>,
    rosterSailed: Fetch<JsValue>, shipOrder: Fetch<JsValue>,
    craft: Fetch<seq<Event>>, pve: Fetch<seq<Event>>, players: Fetch<seq<Player>>)

  /** The records of one subject that a milestone run may touch. */
  function MilestoneKeys(subject: string): set<Key>
  {
    set q | q in MilestoneTable :: Key(subject, q)
  }

  /** The eight checks of a run with a done pre-check, in the order of
      `runNewbieQuestsForPlayer(Nft)`: roster (4), wood (5), ore (5), cotton
      (5), the two flags, first4Craft over `craftWindow`, firstPveWin over
      `pveWindow`. */
  function NewbieSteps(subject: string, sender: string, craftWindow: Window, pveWindow: Window, feed: NewbieFeed): (steps: seq<Step>)
    ensures |steps| == 8 && DistinctKeys(steps)
    ensures StepKeys(steps) <= MilestoneKeys(subject)
    ensures forall i :: 0 <= i < |steps| ==> steps[i].query.sender == sender
  {
    var steps := [
      CountStep(subject, sender, AddedToRoster, 4, feed.roster),
      CountStep(subject, sender, CutWood, 5, feed.wood),
      CountStep(subject, sender, MinedOre, 5, feed.ore),
      CountStep(subject, sender, PlantedCotton, 5, feed.cotton),
      FlagStep(subject, sender, RosterSailed, feed.rosterSailed),
      FlagStep(subject, sender, ShipOrderArranged, feed.shipOrder),
      First4CraftStep(subject, sender, craftWindow, feed.craft),
      FirstPveWinStep(subject, sender, pveWindow, feed.pve)];
    assert First4Craft[5] != FirstPveWin[5];
    StepKeysWithin(steps, MilestoneKeys(subject));
    steps
  }

  /** The keys of a sequence of checks lie within a set when each does. */
  lemma {:induction false} StepKeysWithin(steps: seq<Step>, ks: set<Key>)
    requires forall i :: 0 <= i < |steps| ==> steps[i].key in ks
    ensures StepKeys(steps) <= ks
    decreases |steps|
  {
    if |steps| > 0 {
      StepKeysWithin(steps[1..], ks);
    }
  }

  /** `runNewbieQuestsForPlayer(Nft)`: the eight checks in order, then the
      wallet-and-island check. Only the subject's ten milestone records can
      change, records only grow, created records carry `name`, and every
      lookup is about `sender`. */
  function RunNewbie(s: Store, subject: string, sender: string, name: Option<string>, craftWindow: Window, pveWindow: Window, feed: NewbieFeed): (o: Outcome)
    ensures Grows(s, o.store)
    ensures SameOutside(s, o.store, MilestoneKeys(subject))
    ensures forall j :: j in o.store && j !in s ==> o.store[j].playerName == name
    ensures forall q :: q in o.lookups ==> q.sender == sender
    ensures |o.lookups| <= 9
  {
    var steps := NewbieSteps(subject, sender, craftWindow, pveWindow, feed);
    var o1 := RunSteps(s, name, steps);
    var o2 := CheckWalletAndIsland(o1.store, subject, sender, name, feed.players);
    GrowsTransitive(s, o1.store, o2.store);
    SameOutsideWiden(s, o1.store, StepKeys(steps), MilestoneKeys(subject));
    assert {Key(subject, WalletCreated), Key(subject, ClaimedIsland)} <= MilestoneKeys(subject);
    SameOutsideWiden(o1.store, o2.store, {Key(subject, WalletCreated), Key(subject, ClaimedIsland)}, MilestoneKeys(subject));
    Outcome(o2.store, o1.lookups + o2.lookups)
  }

  /** Each of the eight pre-checked records ends done exactly when it was
      done or its own check's verdict is true, and gains that check's reward
      exactly on that transition; the wallet-and-island check that follows
      does not touch them. */
  lemma {:induction false} RunNewbieStepAt(s: Store, subject: string, sender: string, name: Option<string>, craftWindow: Window, pveWindow: Window, feed: NewbieFeed, i: nat)
    requires i < 8
    ensures var steps := NewbieSteps(subject, sender, craftWindow, pveWindow, feed);
      IsDone(RunNewbie(s, subject, sender, name, craftWindow, pveWindow, feed).store, steps[i].key)
      == (IsDone(s, steps[i].key) || steps[i].verdict == Fetched(true))
    ensures var steps := NewbieSteps(subject, sender, craftWindow, pveWindow, feed);
      PointsAt(RunNewbie(s, subject, sender, name, craftWindow, pveWindow, feed).store, steps[i].key)
      == PointsAt(s, steps[i].key) + (if !IsDone(s, steps[i].key) && steps[i].verdict == Fetched(true) then steps[i].reward else 0)
  {
    var steps := NewbieSteps(subject, sender, craftWindow, pveWindow, feed);
    var s1 := RunSteps(s, name, steps).store;
    var r := CheckWalletAndIsland(s1, subject, sender, name, feed.players).store;
    assert RunNewbie(s, subject, sender, name, craftWindow, pveWindow, feed).store == r;
    OwnCheckDecides(steps, i);
    RunStepsSettles(s, name, steps, steps[i].key);
    NewbieStepsSkipWalletAndIsland(subject, sender, craftWindow, pveWindow, feed, i);
  }

  /** Each of the eight pre-checked steps reconciles a record of the
      subject, and none reconciles walletCreated or claimedIsland; those
      belong to the wallet-and-island check. */
  lemma NewbieStepsSkipWalletAndIsland(subject: string, sender: string, craftWindow: Window, pveWindow: Window, feed: NewbieFeed, i: nat)
    requires i < 8
    ensures var k := NewbieSteps(subject, sender, craftWindow, pveWindow, feed)[i].key;
      k.subject == subject && k != Key(subject, WalletCreated) && k != Key(subject, ClaimedIsland)
  {
    assert WalletCreated[0] == 'w' && ClaimedIsland[1] == 'l';
  }

  /** The four counter milestones of the subject end done exactly when they
      were done or their counter was fetched at or above its threshold (4
      ships added to the roster; 5 wood, ore, cotton). */
  lemma RunNewbieCounters(s: Store, subject: string, sender: string, name: Option<string>, craftWindow: Window, pveWindow: Window, feed: NewbieFeed)
    ensures var r := RunNewbie(s, subject, sender, name, craftWindow, pveWindow, feed).store;
      && IsDone(r, Key(subject, AddedToRoster)) == (IsDone(s, Key(subject, AddedToRoster)) || (feed.roster.Fetched? && AtLeast(feed.roster.data, 4)))
      && IsDone(r, Key(subject, CutWood)) == (IsDone(s, Key(subject, CutWood)) || (feed.wood.Fetched? && AtLeast(feed.wood.data, 5)))
      && IsDone(r, Key(subject, MinedOre)) == (IsDone(s, Key(subject, MinedOre)) || (feed.ore.Fetched? && AtLeast(feed.ore.data, 5)))
      && IsDone(r, Key(subject, PlantedCotton)) == (IsDone(s, Key(subject, PlantedCotton)) || (feed.cotton.Fetched? && AtLeast(feed.cotton.data, 5)))
  {
    RunNewbieStepAt(s, subject, sender, name, craftWindow, pveWindow, feed, 0);
    RunNewbieStepAt(s, subject, sender, name, craftWindow, pveWindow, feed, 1);
    RunNewbieStepAt(s, subject, sender, name, craftWindow, pveWindow, feed, 2);
    RunNewbieStepAt(s, subject, sender, name, craftWindow, pveWindow, feed, 3);
  }

  /** The two flag milestones end done exactly when they were done or their
      flag was fetched as exactly `true`; first4Craft and firstPveWin when
      they were done or the lookup found 4 craft records, one PvE win. */
  lemma RunNewbieFlagsAndEvents(s: Store, subject: string, sender: string, name: Option<string>, craftWindow: Window, pveWindow: Window, feed: NewbieFeed)
    ensures var r := RunNewbie(s, subject, sender, name, craftWindow, pveWindow, feed).store;
      && IsDone(r, Key(subject, RosterSailed)) == (IsDone(s, Key(subject, RosterSailed)) || feed.rosterSailed == Fetched(Bool(true)))
      && IsDone(r, Key(subject, ShipOrderArranged)) == (IsDone(s, Key(subject, ShipOrderArranged)) || feed.shipOrder == Fetched(Bool(true)))
      && IsDone(r, Key(subject, First4Craft)) == (IsDone(s, Key(subject, First4Craft)) || (feed.craft.Fetched? && |feed.craft.data| >= 4))
      && IsDone(r, Key(subject, FirstPveWin)) == (IsDone(s, Key(subject, FirstPveWin)) || (feed.pve.Fetched? && |Wins(feed.pve.data)| >= 1))
  {
    RunNewbieStepAt(s, subject, sender, name, craftWindow, pveWindow, feed, 4);
    RunNewbieStepAt(s, subject, sender, name, craftWindow, pveWindow, feed, 5);
    RunNewbieStepAt(s, subject, sender, name, craftWindow, pveWindow, feed, 6);
    RunNewbieStepAt(s, subject, sender, name, craftWindow, pveWindow, feed, 7);
  }

  /** walletCreated and claimedIsland end done exactly when they were done or
      the players lookup succeeded with a non-empty list (and, for the
      island, a player whose claimedIsland is not null). */
  lemma RunNewbieWalletAndIsland(s: Store, subject: string, sender: string, name: Option<string>, craftWindow: Window, pveWindow: Window, feed: NewbieFeed)
    ensures var r := RunNewbie(s, subject, sender, name, craftWindow, pveWindow, feed).store;
      && IsDone(r, Key(subject, WalletCreated)) == (IsDone(s, Key(subject, WalletCreated)) || (feed.players.Fetched? && |feed.players.data| > 0))
      && IsDone(r, Key(subject, ClaimedIsland)) == (IsDone(s, Key(subject, ClaimedIsland)) || (feed.players.Fetched? && HasPlayer(feed.players.data) && AnyIslandClaimed(feed.players.data)))
    ensures var r := RunNewbie(s, subject, sender, name, craftWindow, pveWindow, feed).store;
      && PointsAt(r, Key(subject, WalletCreated)) == PointsAt(s, Key(subject, WalletCreated))
           + (if !IsDone(s, Key(subject, WalletCreated)) && feed.players.Fetched? && |feed.players.data| > 0 then 2 else 0)
      && PointsAt(r, Key(subject, ClaimedIsland)) == PointsAt(s, Key(subject, ClaimedIsland))
           + (if !IsDone(s, Key(subject, ClaimedIsland)) && feed.players.Fetched? && HasPlayer(feed.players.data) && AnyIslandClaimed(feed.players.data) then 5 else 0)
  {
    NewbieStepsKeepWalletAndIsland(s, subject, sender, name, craftWindow, pveWindow, feed);
  }

  /** The eight pre-checked steps leave walletCreated and claimedIsland as
      they were. */
  lemma NewbieStepsKeepWalletAndIsland(s: Store, subject: string, sender: string, name: Option<string>, craftWindow: Window, pveWindow: Window, feed: NewbieFeed)
    ensures var s1 := RunSteps(s, name, NewbieSteps(subject, sender, craftWindow, pveWindow, feed)).store;
      && Get(s1, Key(subject, WalletCreated)) == Get(s, Key(subject, WalletCreated))
      && Get(s1, Key(subject, ClaimedIsland)) == Get(s, Key(subject, ClaimedIsland))
  {
    var steps := NewbieSteps(subject, sender, craftWindow, pveWindow, feed);
    forall i | 0 <= i < |steps|
      ensures steps[i].key != Key(subject, WalletCreated) && steps[i].key != Key(subject, ClaimedIsland)
    {
      NewbieStepsSkipWalletAndIsland(subject, sender, craftWindow, pveWindow, feed, i);
    }
    RunStepsKeeps(s, name, steps, Key(subject, WalletCreated));
    RunStepsKeeps(s, name, steps, Key(subject, ClaimedIsland));
  }

  /** A record no check of the run reconciles is left as it was. */
  lemma RunStepsKeeps(s: Store, name: Option<string>, steps: seq<Step>, k: Key)
    requires forall i :: 0 <= i < |steps| ==> steps[i].key != k
    ensures Get(RunSteps(s, name, steps).store, k) == Get(s, k)
  {
    KeysOfSteps(steps, k);
  }

  /** A record is among the keys of a sequence of checks exactly when one of
      the checks reconciles it. */
  lemma {:induction false} KeysOfSteps(steps: seq<Step>, k: Key)
    ensures k in StepKeys(steps) <==> exists i :: 0 <= i < |steps| && steps[i].key == k
    decreases |steps|
  {
    if |steps| > 0 {
      KeysOfSteps(steps[1..], k);
      if exists i :: 0 <= i < |steps[1..]| && steps[1..][i].key == k {
        var i :| 0 <= i < |steps[1..]| && steps[1..][i].key == k;
        assert steps[i + 1].key == k;
      }
      if exists i :: 0 <= i < |steps| && steps[i].key == k {
        var i :| 0 <= i < |steps| && steps[i].key == k;
        if i > 0 { assert steps[1..][i - 1].key == k; }
      }
    }
  }

  /** The NFT milestone run: keyed by the NFT, asking about the owning
      wallet; the window end of first4Craft and of firstPveWin is the clock
      read by each of those checks, the start is the launch date. */
  function RunNewbieNft(s: Store, wallet: string, nftId: string, name: Option<string>, craftClock: int, pveClock: int, feed: NewbieFeed): (o: Outcome)
    ensures Grows(s, o.store)
    ensures SameOutside(s, o.store, MilestoneKeys(nftId))
    ensures forall j :: j in o.store && j !in s ==> o.store[j].playerName == name
    ensures forall q :: q in o.lookups ==> q.sender == wallet
  {
    RunNewbie(s, nftId, wallet, name, MilestoneWindow(craftClock), MilestoneWindow(pveClock), feed)
  }

  /** The wallet milestone run: keyed and asked by the wallet, with one
      window for both event checks, fixed when the module loaded. */
  function RunNewbieWallet(s: Store, wallet: string, name: Option<string>, loadTime: int, feed: NewbieFeed): (o: Outcome)
    ensures Grows(s, o.store)
    ensures SameOutside(s, o.store, MilestoneKeys(wallet))
    ensures forall j :: j in o.store && j !in s ==> o.store[j].playerName == name
    ensures forall q :: q in o.lookups ==> q.sender == wallet
  {
    RunNewbie(s, wallet, wallet, name, MilestoneWindow(loadTime), MilestoneWindow(loadTime), feed)
  }
}

=== FILE: nft_daily.dfy ===
/** The NFT daily service: the per-NFT checks (shared with the wallet service
    through module DailyQuests) and the four cohort batches, which ask the
    indexer once for a whole cohort and reconcile every member from the
    answer. */
module NftDaily {
  import opened Values
  import opened Progress
  import opened Rewards
  import opened Predicates
  import opened Windows
  import opened Checks
  import opened DailyQuests

  /** The four per-NFT checks as `/get-all-quests-nft` runs them: keyed by the
      NFT, asking about the owning wallet over today's UTC window, storing
      the player's name on the records they create. */
  function RunNftDaily(s: Store, wallet: string, nftId: string, name: Option<string>, now: int, feed: DailyFeed): (o: Outcome)
    ensures Grows(s, o.store)
    ensures SameOutside(s, o.store, DailyKeys(nftId))
    ensures forall k :: k in o.store && k !in s ==> o.store[k].playerName == name
    ensures forall q :: q in o.lookups ==> q.window == Some(DailyWindow(now)) && q.sender == wallet
  {
    RunDaily(s, nftId, wallet, name, DailyWindow(now), feed)
  }

  // ---------------------------------------------------------------------
  // Batches

  /** One entry of a batch cohort. */
  datatype Member = Member(playerAddr: string, nftId: string, playerName: Option<string>)

  /** `senderAddresses`: the cohort's addresses in order, repeats kept. */
  function Addresses(cohort: seq<Member>): (r: seq<string>)
    ensures |r| == |cohort|
    ensures forall i :: 0 <= i < |cohort| ==> r[i] == cohort[i].playerAddr
  {
    if |cohort| == 0 then [] else [cohort[0].playerAddr] + Addresses(cohort[1..])
  }

  /** `playerAddrMap` and `playerNameMap` together, assigned entry by entry
      in cohort order: every listed address gets an entry, and nothing
      else does. */
  function AddressBook(cohort: seq<Member>): (book: map<string, Member>)
    ensures forall i :: 0 <= i < |cohort| ==> cohort[i].playerAddr in book
    ensures forall a :: a in book ==> book[a] in cohort && book[a].playerAddr == a
    decreases |cohort|
  {
    if |cohort| == 0 then map[]
    else
      var front := cohort[..|cohort| - 1];
      var last := cohort[|cohort| - 1];
      assert forall i :: 0 <= i < |front| ==> cohort[i] == front[i];
      AddressBook(front)[last.playerAddr := last]
  }

  /** Each assignment overwrites the previous one, so an address maps to the
      last entry that lists it; `i` is that entry. */
  lemma {:induction false} AddressBookKeepsLast(cohort: seq<Member>, a: string) returns (i: nat)
    requires a in AddressBook(cohort)
    ensures i < |cohort| && cohort[i] == AddressBook(cohort)[a] && LastFor(cohort, a, i)
    decreases |cohort|
  {
    var front := cohort[..|cohort| - 1];
    var last := cohort[|cohort| - 1];
    var book := AddressBook(front);
    assert AddressBook(cohort) == book[last.playerAddr := last];
    if last.playerAddr == a {
      i := |cohort| - 1;
    } else {
      i := AddressBookKeepsLast(front, a);
      assert cohort[i] == front[i];
      assert forall j :: i < j < |front| ==> cohort[j] == front[j];
    }
  }

  /** Entry `i` lists address `a` and no later entry does. */
  predicate LastFor(cohort: seq<Member>, a: string, i: int)
    requires 0 <= i < |cohort|
  {
    cohort[i].playerAddr == a && forall j :: i < j < |cohort| ==> cohort[j].playerAddr != a
  }

  /** Different addresses of the book name different NFTs. */
  predicate OneNftPerAddress(book: map<string, Member>)
  {
    forall a, b :: a in book && b in book && a != b ==> book[a].nftId != book[b].nftId
  }

  /** How many records from sender `a` pass `counts`: the per-sender count a
      batch compares with its threshold. */
  function Count(es: seq<Event>, counts: Event -> bool, a: string): nat
    decreases |es|
  {
    if |es| == 0 then 0
    else Count(es[..|es| - 1], counts, a) + (if es[|es| - 1].suiSender == a && counts(es[|es| - 1]) then 1 else 0)
  }

  /** `senderCount[a]`, with a missing entry read as 0 (`undefined >= n` is
      false for every positive threshold, as is `0 >= n`). */
  function CountOf(m: map<string, nat>, a: string): nat
  {
    if a in m then m[a] else 0
  }

  /** The `reduce` that builds the per-sender count map: each counted record
      adds one to its sender's entry. Every entry is the sender's count, and
      only senders with a counted record have one. */
  function Tally(es: seq<Event>, counts: Event -> bool): (m: map<string, nat>)
    ensures forall a :: CountOf(m, a) == Count(es, counts, a)
    ensures forall a :: a in m ==> m[a] > 0 && exists i :: 0 <= i < |es| && es[i].suiSender == a && counts(es[i])
    decreases |es|
  {
    if |es| == 0 then map[]
    else
      var front := es[..|es| - 1];
      var e := es[|es| - 1];
      var m := Tally(front, counts);
      assert forall i :: 0 <= i < |front| ==> es[i] == front[i];
      if counts(e) then m[e.suiSender := CountOf(m, e.suiSender) + 1] else m
  }

  /** Every craft record counts. */
  predicate AnyRecord(e: Event)
  {
    true
  }

  /** The PvE batch counts records whose winner is the number 1. */
  predicate IsWin(e: Event)
  {
    e.winner == Num(1)
  }

  /** The PvP batch counts records its sender won, by the initiator/responder
      rule applied to the record's own sender. */
  predicate SenderWon(e: Event)
  {
    WonBy(e, e.suiSender)
  }

  /** The records of the NFTs an address book names, for one quest. */
  function BookKeys(book: map<string, Member>, quest: string): set<Key>
  {
    set a | a in book :: Key(book[a].nftId, quest)
  }

  /** The cohort loop of a batch: for each address in order, skip it when
      the NFT it maps to is done, otherwise reconcile that NFT with the
      address's verdict, the reward when true, and the address's name. */
  function Sweep(s: Store, book: map<string, Member>, addrs: seq<string>, quest: string, reward: nat, verdict: string -> bool): (r: Store)
    requires forall i :: 0 <= i < |addrs| ==> addrs[i] in book
    ensures Grows(s, r)
    ensures SameOutside(s, r, BookKeys(book, quest))
    ensures forall a :: a in addrs ==> Key(book[a].nftId, quest) in r
    decreases |addrs|
  {
    if |addrs| == 0 then s
    else
      var m := book[addrs[0]];
      var k := Key(m.nftId, quest);
      var s1 := if IsDone(s, k) then s else Settle(s, k, verdict(addrs[0]), reward, m.playerName);
      var r := Sweep(s1, book, addrs[1..], quest, reward, verdict);
      GrowsTransitive(s, s1, r);
      assert forall i :: 1 <= i < |addrs| ==> addrs[i] == addrs[1..][i - 1];
      r
  }

  /** What the cohort loop does to the NFT of one address `a`, when no other
      address of the loop maps to the same NFT: it ends done exactly when it
      was done or `a` is in the loop with a true verdict, and gains the
      reward once on that transition, however often `a` is listed. */
  lemma {:induction false} SweepAt(s: Store, book: map<string, Member>, addrs: seq<string>, quest: string, reward: nat, verdict: string -> bool, a: string)
    requires forall i :: 0 <= i < |addrs| ==> addrs[i] in book
    requires a in book
    requires forall i :: 0 <= i < |addrs| ==> book[addrs[i]].nftId == book[a].nftId ==> addrs[i] == a
    ensures var k := Key(book[a].nftId, quest);
      var r := Sweep(s, book, addrs, quest, reward, verdict);
      && IsDone(r, k) == (IsDone(s, k) || (a in addrs && verdict(a)))
      && PointsAt(r, k) == PointsAt(s, k) + (if !IsDone(s, k) && a in addrs && verdict(a) then reward else 0)
    decreases |addrs|
  {
    if |addrs| > 0 {
      var m := book[addrs[0]];
      var k0 := Key(m.nftId, quest);
      var s1 := if IsDone(s, k0) then s else Settle(s, k0, verdict(addrs[0]), reward, m.playerName);
      assert forall i :: 0 <= i < |addrs[1..]| ==> addrs[1..][i] == addrs[i + 1];
      SweepAt(s1, book, addrs[1..], quest, reward, verdict, a);
      assert (a in addrs) == (addrs[0] == a || a in addrs[1..]) by {
        assert addrs == [addrs[0]] + addrs[1..];
      }
    }
  }

  /** A cohort batch over one indexer answer: a failed request changes
      nothing; otherwise the cohort loop runs with the per-address verdict,
      and every member's NFT ends with a record. */
  function Batch(s: Store, cohort: seq<Member>, resp: Fetch<seq<Event>>, quest: string, verdict: seq<Event> -> string -> bool): (r: Store)
    ensures resp.Failed? ==> r == s
    ensures Grows(s, r)
    ensures SameOutside(s, r, BookKeys(AddressBook(cohort), quest))
    ensures resp.Fetched? ==> forall a :: a in AddressBook(cohort) ==> Key(AddressBook(cohort)[a].nftId, quest) in r
  {
    var book := AddressBook(cohort);
    var addrs := Addresses(cohort);
    match resp
    case Failed => s
    case Fetched(es) => Sweep(s, book, addrs, quest, DailyReward(quest), verdict(es))
  }

  /** The craft batch's verdict: the sender's tallied records reach 4. */
  function CraftVerdict(es: seq<Event>): string -> bool
  {
    var counts := Tally(es, AnyRecord);
    a => CountOf(counts, a) >= 4
  }

  /** The PvE batch's verdict: the sender's tallied wins reach 3. */
  function PveVerdict(es: seq<Event>): string -> bool
  {
    var counts := Tally(es, IsWin);
    a => CountOf(counts, a) >= 3
  }

  /** The PvP batch's verdict: the sender won at least one tallied record. */
  function PvpVerdict(es: seq<Event>): string -> bool
  {
    var counts := Tally(es, SenderWon);
    a => CountOf(counts, a) >= 1
  }

  /** `checkCraftForDailyQuestNftBatch`. */
  function CraftBatch(s: Store, cohort: seq<Member>, resp: Fetch<seq<Event>>): (r: Store)
    ensures resp.Failed? ==> r == s
    ensures Grows(s, r)
    ensures SameOutside(s, r, BookKeys(AddressBook(cohort), CraftShips))
    ensures resp.Fetched? ==> forall a :: a in AddressBook(cohort) ==> Key(AddressBook(cohort)[a].nftId, CraftShips) in r
  {
    Batch(s, cohort, resp, CraftShips, CraftVerdict)
  }

  /** `checkCombatToPVEForDailyQuestNftBatch`. */
  function PveBatch(s: Store, cohort: seq<Member>, resp: Fetch<seq<Event>>): (r: Store)
    ensures resp.Failed? ==> r == s
    ensures Grows(s, r)
    ensures SameOutside(s, r, BookKeys(AddressBook(cohort), BattlePve))
    ensures resp.Fetched? ==> forall a :: a in AddressBook(cohort) ==> Key(AddressBook(cohort)[a].nftId, BattlePve) in r
  {
    Batch(s, cohort, resp, BattlePve, PveVerdict)
  }

  /** `checkCombatToPVPForDailyQuestNftBatch`. */
  function PvpBatch(s: Store, cohort: seq<Member>, resp: Fetch<seq<Event>>): (r: Store)
    ensures resp.Failed? ==> r == s
    ensures Grows(s, r)
    ensures SameOutside(s, r, BookKeys(AddressBook(cohort), BattlePvp))
    ensures resp.Fetched? ==> forall a :: a in AddressBook(cohort) ==> Key(AddressBook(cohort)[a].nftId, BattlePvp) in r
  {
    Batch(s, cohort, resp, BattlePvp, PvpVerdict)
  }

  // ---------------------------------------------------------------------
  // The faucet batch

  /** The faucet batch's loop over the returned records, in order: a record
      whose sender is in the cohort completes the sender's NFT unless it is
      already done; a record from an address outside the cohort is skipped.
      A member without records is never visited. */
  function FaucetSweep(s: Store, book: map<string, Member>, es: seq<Event>): (r: Store)
    ensures Grows(s, r)
    ensures SameOutside(s, r, BookKeys(book, ClaimEnergy))
    decreases |es|
  {
    if |es| == 0 then s
    else
      var sender := es[0].suiSender;
      var s1 :=
        if sender !in book then s
        else
          var k := Key(book[sender].nftId, ClaimEnergy);
          if IsDone(s, k) then s else Settle(s, k, true, DailyReward(ClaimEnergy), book[sender].playerName);
      var r := FaucetSweep(s1, book, es[1..]);
      GrowsTransitive(s, s1, r);
      r
  }

  /** What the faucet loop does to the NFT of member `a`, when no other
      member shares it: done exactly when it was done or some record came
      from `a`, with the 3 points granted once however many records `a`
      sent; with no record from `a` the record is left as it was, absent
      included. */
  lemma {:induction false} FaucetSweepAt(s: Store, book: map<string, Member>, es: seq<Event>, a: string)
    requires a in book && OneNftPerAddress(book)
    ensures var k := Key(book[a].nftId, ClaimEnergy);
      var r := FaucetSweep(s, book, es);
      && IsDone(r, k) == (IsDone(s, k) || Claimed(es, a))
      && PointsAt(r, k) == PointsAt(s, k) + (if !IsDone(s, k) && Claimed(es, a) then 3 else 0)
      && (!Claimed(es, a) ==> Get(r, k) == Get(s, k))
    decreases |es|
  {
    if |es| > 0 {
      var sender := es[0].suiSender;
      var s1 :=
        if sender !in book then s
        else
          var k := Key(book[sender].nftId, ClaimEnergy);
          if IsDone(s, k) then s else Settle(s, k, true, DailyReward(ClaimEnergy), book[sender].playerName);
      FaucetSweepAt(s1, book, es[1..], a);
      assert Claimed(es, a) == (sender == a || Claimed(es[1..], a));
    }
  }

  /** `checkFaucetForDailyQuestNftBatch`: a failed request changes nothing;
      otherwise the records are swept. */
  function FaucetBatch(s: Store, cohort: seq<Member>, resp: Fetch<seq<Event>>): (r: Store)
    ensures resp.Failed? ==> r == s
    ensures Grows(s, r)
    ensures SameOutside(s, r, BookKeys(AddressBook(cohort), ClaimEnergy))
  {
    match resp
    case Failed => s
    case Fetched(es) => FaucetSweep(s, AddressBook(cohort), es)
  }

  // ---------------------------------------------------------------------
  // Batches against the per-NFT checks

  /** The records of one sender, in order: what the per-NFT check receives
      when it asks the indexer about that sender alone. */
  function FromSender(es: seq<Event>, a: string): (r: seq<Event>)
    ensures forall e :: e in r <==> e in es && e.suiSender == a
    decreases |es|
  {
    if |es| == 0 then []
    else
      var e := es[|es| - 1];
      var front := es[..|es| - 1];
      assert es == front + [e];
      FromSender(front, a) + (if e.suiSender == a then [e] else [])
  }

  /** A sender's records are all of the answer's records from that sender,
      each as often as it occurs, and no other record. */
  lemma {:induction false} FromSenderExactly(es: seq<Event>, a: string, e: Event)
    ensures multiset(FromSender(es, a))[e] == if e.suiSender == a then multiset(es)[e] else 0
    decreases |es|
  {
    if |es| > 0 {
      var front := es[..|es| - 1];
      assert es == front + [es[|es| - 1]];
      FromSenderExactly(front, a, e);
    }
  }

  /** The craft count of a sender is the number of its records. */
  lemma {:induction false} CountAllRecords(es: seq<Event>, a: string)
    ensures Count(es, AnyRecord, a) == |FromSender(es, a)|
    decreases |es|
  {
    if |es| > 0 {
      CountAllRecords(es[..|es| - 1], a);
    }
  }

  /** The PvE count of a sender is the number of its wins. */
  lemma {:induction false} CountWinRecords(es: seq<Event>, a: string)
    ensures Count(es, IsWin, a) == |Wins(FromSender(es, a))|
    decreases |es|
  {
    if |es| > 0 {
      var e := es[|es| - 1];
      var front := es[..|es| - 1];
      CountWinRecords(front, a);
      if e.suiSender == a {
        assert FromSender(es, a) == FromSender(front, a) + [e];
        WinsAppend(FromSender(front, a), e);
        assert Count(es, IsWin, a) == Count(front, IsWin, a) + (if IsWin(e) then 1 else 0);
        assert |Wins(FromSender(es, a))| == |Wins(FromSender(front, a))| + (if IsWin(e) then 1 else 0);
      } else {
        assert FromSender(es, a) == FromSender(front, a);
      }
    }
  }

  /** A sender has a PvP count exactly when it won one of its own records. */
  lemma {:induction false} CountPvpRecords(es: seq<Event>, a: string)
    ensures Count(es, SenderWon, a) >= 1 <==> PvpWon(FromSender(es, a), a)
    decreases |es|
  {
    if |es| > 0 {
      var e := es[|es| - 1];
      var front := es[..|es| - 1];
      CountPvpRecords(front, a);
      var x := FromSender(front, a);
      if e.suiSender == a {
        var y := x + [e];
        assert PvpWon(y, a) <==> PvpWon(x, a) || WonBy(e, a) by {
          if PvpWon(x, a) {
            var i :| 0 <= i < |x| && WonBy(x[i], a);
            assert y[i] == x[i];
          }
          if WonBy(e, a) {
            assert y[|x|] == e;
          }
          if PvpWon(y, a) {
            var i :| 0 <= i < |y| && WonBy(y[i], a);
            if i < |x| { assert x[i] == y[i]; }
          }
        }
      }
    }
  }

  /** A sender completes the faucet exactly when it has some record. */
  lemma FaucetBySender(es: seq<Event>, a: string)
    ensures Claimed(FromSender(es, a), a) == Claimed(es, a)
  {
    var r := FromSender(es, a);
    if Claimed(es, a) {
      var i :| 0 <= i < |es| && es[i].suiSender == a;
      assert es[i] in r;
    }
    if Claimed(r, a) {
      var i :| 0 <= i < |r| && r[i].suiSender == a;
      assert r[i] in es;
    }
  }

  /** Every member's address is among the cohort's addresses. */
  lemma MemberListed(cohort: seq<Member>, a: string)
    requires a in AddressBook(cohort)
    ensures a in Addresses(cohort)
  {
    var i := AddressBookKeepsLast(cohort, a);
    assert Addresses(cohort)[i] == a;
  }

  /** What a cohort batch does to one member's NFT, when no two members share
      an NFT: the per-address verdict decides it, once. */
  lemma BatchAt(s: Store, cohort: seq<Member>, es: seq<Event>, quest: string, verdict: seq<Event> -> string -> bool, a: string)
    requires a in AddressBook(cohort) && OneNftPerAddress(AddressBook(cohort))
    ensures var k := Key(AddressBook(cohort)[a].nftId, quest);
      var r := Batch(s, cohort, Fetched(es), quest, verdict);
      && IsDone(r, k) == (IsDone(s, k) || verdict(es)(a))
      && PointsAt(r, k) == PointsAt(s, k) + (if !IsDone(s, k) && verdict(es)(a) then DailyReward(quest) else 0)
  {
    var book := AddressBook(cohort);
    MemberListed(cohort, a);
    SweepAt(s, book, Addresses(cohort), quest, DailyReward(quest), verdict(es), a);
  }

  /** The craft batch decides each member's NFT exactly as the per-NFT craft
      check would, given the member's own records. */
  lemma CraftBatchAgreesWithCheck(s: Store, cohort: seq<Member>, es: seq<Event>, a: string, w: Window)
    requires a in AddressBook(cohort) && OneNftPerAddress(AddressBook(cohort))
    ensures var m := AddressBook(cohort)[a];
      var k := Key(m.nftId, CraftShips);
      var batch := CraftBatch(s, cohort, Fetched(es));
      var single := CheckCraft(s, m.nftId, a, m.playerName, w, Fetched(FromSender(es, a))).store;
      IsDone(batch, k) == IsDone(single, k) && PointsAt(batch, k) == PointsAt(single, k)
  {
    BatchAt(s, cohort, es, CraftShips, CraftVerdict, a);
    CountAllRecords(es, a);
  }

  /** The PvE batch decides each member's NFT exactly as the per-NFT PvE
      check would, given the member's own records. */
  lemma PveBatchAgreesWithCheck(s: Store, cohort: seq<Member>, es: seq<Event>, a: string, w: Window)
    requires a in AddressBook(cohort) && OneNftPerAddress(AddressBook(cohort))
    ensures var m := AddressBook(cohort)[a];
      var k := Key(m.nftId, BattlePve);
      var batch := PveBatch(s, cohort, Fetched(es));
      var single := CheckPve(s, m.nftId, a, m.playerName, w, Fetched(FromSender(es, a))).store;
      IsDone(batch, k) == IsDone(single, k) && PointsAt(batch, k) == PointsAt(single, k)
  {
    BatchAt(s, cohort, es, BattlePve, PveVerdict, a);
    CountWinRecords(es, a);
  }

  /** The PvP batch decides each member's NFT exactly as the per-NFT PvP
      check would, given the member's own records. */
  lemma PvpBatchAgreesWithCheck(s: Store, cohort: seq<Member>, es: seq<Event>, a: string, w: Window)
    requires a in AddressBook(cohort) && OneNftPerAddress(AddressBook(cohort))
    ensures var m := AddressBook(cohort)[a];
      var k := Key(m.nftId, BattlePvp);
      var batch := PvpBatch(s, cohort, Fetched(es));
      var single := CheckPvp(s, m.nftId, a, m.playerName, w, Fetched(FromSender(es, a))).store;
      IsDone(batch, k) == IsDone(single, k) && PointsAt(batch, k) == PointsAt(single, k)
  {
    BatchAt(s, cohort, es, BattlePvp, PvpVerdict, a);
    CountPvpRecords(es, a);
  }

  /** The faucet batch decides each member's NFT as the per-NFT faucet check
      would, except that a member without records is not visited at all:
      where the per-NFT check creates a not-done record, the batch leaves
      the record absent. */
  lemma FaucetBatchAgreesWithCheck(s: Store, cohort: seq<Member>, es: seq<Event>, a: string, w: Window)
    requires a in AddressBook(cohort) && OneNftPerAddress(AddressBook(cohort))
    ensures var m := AddressBook(cohort)[a];
      var k := Key(m.nftId, ClaimEnergy);
      var batch := FaucetBatch(s, cohort, Fetched(es));
      var single := CheckFaucet(s, m.nftId, a, m.playerName, w, Fetched(FromSender(es, a))).store;
      && IsDone(batch, k) == IsDone(single, k)
      && PointsAt(batch, k) == PointsAt(single, k)
      && (!Claimed(es, a) ==> Get(batch, k) == Get(s, k))
  {
    FaucetSweepAt(s, AddressBook(cohort), es, a);
    FaucetBySender(es, a);
  }

  /** An address listed twice reconciles the NFT of its last entry; the NFT
      of the earlier entry is not touched. */
  lemma DuplicateUsesLastNft(s: Store, a: string, n1: string, n2: string, x: Option<string>, y: Option<string>, es: seq<Event>)
    requires n1 != n2
    ensures var r := CraftBatch(s, [Member(a, n1, x), Member(a, n2, y)], Fetched(es));
      Key(n2, CraftShips) in r && Get(r, Key(n1, CraftShips)) == Get(s, Key(n1, CraftShips))
  {
    var cohort := [Member(a, n1, x), Member(a, n2, y)];
    var book := AddressBook(cohort);
    assert cohort[..1] == [Member(a, n1, x)];
    assert book == map[a := Member(a, n2, y)];
    assert BookKeys(book, CraftShips) == {Key(n2, CraftShips)};
  }
}

=== FILE: predicates.dfy ===
/** The quest predicates: pure verdicts over what the indexer returned. */
module Predicates {
  import opened Values

  /** One indexer event record. Craft and faucet records carry only the
      sender; PvE records add `winner`; PvP records add the initiator and
      responder addresses. A field a record type does not have is
      `Undefined`. */
  datatype Event = Event(suiSender: string, winner: JsValue, initiator: JsValue, responder: JsValue)

  /** One entry of the Players-by-owner response. */
  datatype Player = Player(claimedIsland: JsValue)

  /** `combats.filter((c) => c.winner === 1)`: the strict comparison keeps only
      the number 1, not `"1"` or `true`. */
  function Wins(es: seq<Event>): (r: seq<Event>)
    ensures |r| <= |es|
    ensures forall x :: x in r ==> x in es && x.winner == Num(1)
  {
    if |es| == 0 then []
    else (if es[0].winner == Num(1) then [es[0]] else []) + Wins(es[1..])
  }

  /** The filter keeps every winning record as often as it occurs and drops
      every other record. */
  lemma {:induction false} WinsExactly(es: seq<Event>, e: Event)
    ensures multiset(Wins(es))[e] == (if e.winner == Num(1) then multiset(es)[e] else 0)
    decreases |es|
  {
    if |es| > 0 {
      assert es == [es[0]] + es[1..];
      WinsExactly(es[1..], e);
    }
  }

  lemma {:induction false} WinsAppend(es: seq<Event>, e: Event)
    ensures Wins(es + [e]) == Wins(es) + (if e.winner == Num(1) then [e] else [])
    decreases |es|
  {
    var tail := if e.winner == Num(1) then [e] else [];
    if |es| == 0 {
      assert Wins([e]) == tail + Wins([]);
      assert es + [e] == [e];
    } else {
      var head := if es[0].winner == Num(1) then [es[0]] else [];
      assert (es + [e])[0] == es[0];
      assert (es + [e])[1..] == es[1..] + [e];
      WinsAppend(es[1..], e);
      calc {
        Wins(es + [e]);
        head + Wins(es[1..] + [e]);
        head + (Wins(es[1..]) + tail);
        (head + Wins(es[1..])) + tail;
        Wins(es) + tail;
      }
    }
  }

  /** craft_ships (daily) is done with at least 4 records. */
  predicate CraftDone(es: seq<Event>)
  {
    |es| >= 4
  }

  /** battle_pve (daily) is done with at least 3 wins. */
  predicate PveDone(es: seq<Event>)
  {
    |Wins(es)| >= 3
  }

  /** first4Craft (milestone) is done with at least 4 records since launch. */
  predicate First4CraftDone(es: seq<Event>)
  {
    |es| >= 4
  }

  /** firstPveWin (milestone) is done with at least one win since launch. */
  predicate FirstPveWinDone(es: seq<Event>)
  {
    |Wins(es)| >= 1
  }

  /** The PvP rule for one event: the player initiated and side 1 won, or the
      player responded and side 0 won. */
  predicate WonBy(e: Event, player: string)
  {
    (e.initiator == Str(player) && e.winner == Num(1)) || (e.responder == Str(player) && e.winner == Num(0))
  }

  /** battle_pvp (daily): `combats.some(...)` with the rule above. */
  function PvpWon(es: seq<Event>, player: string): (r: bool)
    ensures r <==> exists i :: 0 <= i < |es| && WonBy(es[i], player)
  {
    if |es| == 0 then false
    else WonBy(es[0], player) || PvpWon(es[1..], player)
  }

  /** claim_energy (daily): `faucetRecords.some((r) => r.suiSender === player)`. */
  function Claimed(es: seq<Event>, player: string): (r: bool)
    ensures r <==> exists i :: 0 <= i < |es| && es[i].suiSender == player
  {
    if |es| == 0 then false
    else es[0].suiSender == player || Claimed(es[1..], player)
  }

  /** A counting milestone (`data >= requiredValue`). */
  predicate CountReached(data: JsValue, required: int)
  {
    AtLeast(data, required)
  }

  /** A flag milestone (`data === true`). */
  predicate FlagSet(data: JsValue)
  {
    data == Bool(true)
  }

  /** walletCreated: the owner has at least one player. */
  predicate HasPlayer(players: seq<Player>)
  {
    |players| > 0
  }

  /** claimedIsland: `players.some((p) => p.claimedIsland !== null)`. A player
      without the field (`undefined`) passes this strict test. */
  function AnyIslandClaimed(players: seq<Player>): (r: bool)
    ensures r <==> exists i :: 0 <= i < |players| && players[i].claimedIsland != Null
  {
    if |players| == 0 then false
    else players[0].claimedIsland != Null || AnyIslandClaimed(players[1..])
  }

  /** PvE threshold boundary: with 2 wins the quest is not done; a third event
      completes it exactly when its winner is the number 1. */
  lemma PveBoundary(es: seq<Event>, e: Event)
    requires |Wins(es)| == 2
    ensures !PveDone(es)
    ensures PveDone(es + [e]) <==> e.winner == Num(1)
  {
    WinsAppend(es, e);
  }
}

=== FILE: progress.dfy ===
/** The progress store of one record family and its reconciliation rule.

    The four collections of the system (wallet daily, NFT daily, wallet
    milestone, NFT milestone) all have this shape: a record per
    (subject, quest name), where the subject is a wallet address or an NFT
    id. `done` stands for `completedToday` in the daily families and for
    `completed` in the milestone families. The collections declare no unique
    index, so one record per key is an assumption of this model. */
module Progress {
  import opened Values

  datatype Key = Key(subject: string, quest: string)

  datatype Record = Record(done: bool, points: nat, playerName: Option<string>)

  type Store = map<Key, Record>

  function Get(s: Store, k: Key): Option<Record>
  {
    if k in s then Some(s[k]) else None
  }

  /** `isQuestCompletedToday` / `isQuestCompleted`: a missing record counts as
      not done. */
  predicate IsDone(s: Store, k: Key)
  {
    k in s && s[k].done
  }

  /** Points held at a key; a missing record holds none. */
  function PointsAt(s: Store, k: Key): nat
  {
    if k in s then s[k].points else 0
  }

  predicate WasDone(prior: Option<Record>)
  {
    prior.Some? && prior.value.done
  }

  function PriorPoints(prior: Option<Record>): nat
  {
    if prior.Some? then prior.value.points else 0
  }

  /** The record `updateQuestProgressInDB` leaves at a key that held `prior`:
      create it, flip a not-done record to the verdict, or leave a done record
      alone. */
  function ReconcileRecord(prior: Option<Record>, points: nat, completed: bool, name: Option<string>): (r: Record)
    ensures r.done == (WasDone(prior) || completed)
    ensures r.points == PriorPoints(prior) + (if completed && !WasDone(prior) then points else 0)
    ensures r.playerName == (if prior.Some? then prior.value.playerName else name)
    ensures WasDone(prior) ==> r == prior.value
  {
    match prior
    case None => Record(completed, if completed then points else 0, name)
    case Some(rec) =>
      if rec.done then rec
      else rec.(done := completed, points := rec.points + (if completed then points else 0))
  }

  /** What one reconciliation of key `k` does to a store, stated through the
      observations a reader makes: only `k` changes; it is done afterwards
      exactly when it was done before or the verdict is true; it gains the
      points exactly on a not-done to done transition; a name is only ever
      written when the record is created. */
  ghost predicate Reconciled(s: Store, s': Store, k: Key, points: nat, completed: bool, name: Option<string>)
  {
    && s'.Keys == s.Keys + {k}
    && (forall j :: j in s && j != k ==> s'[j] == s[j])
    && IsDone(s', k) == (IsDone(s, k) || completed)
    && PointsAt(s', k) == PointsAt(s, k) + (if completed && !IsDone(s, k) then points else 0)
    && s'[k].playerName == (if k in s then s[k].playerName else name)
  }

  /** Every key other than `k` is exactly as it was: present or absent, with
      the same record. */
  ghost predicate SameExcept(s: Store, s': Store, k: Key)
  {
    forall j :: j != k ==> (j in s' <==> j in s) && (j in s ==> s'[j] == s[j])
  }

  /** Every key outside `ks` is exactly as it was. */
  ghost predicate SameOutside(s: Store, s': Store, ks: set<Key>)
  {
    forall j :: j !in ks ==> (j in s' <==> j in s) && (j in s ==> s'[j] == s[j])
  }

  /** Nothing is lost: every record survives, its points never decrease, its
      name is never rewritten, and a done record is left exactly as it was. */
  ghost predicate Grows(s: Store, s': Store)
  {
    forall k :: k in s ==>
      && k in s'
      && s[k].points <= s'[k].points
      && s'[k].playerName == s[k].playerName
      && (s[k].done ==> s'[k] == s[k])
  }

  /** `updateQuestProgressInDB(subject, questName, points, completed, playerName)`. */
  function Reconcile(s: Store, k: Key, points: nat, completed: bool, name: Option<string>): (r: Store)
    ensures Reconciled(s, r, k, points, completed, name)
    ensures SameExcept(s, r, k)
    ensures Grows(s, r)
    ensures IsDone(s, k) ==> r == s
  {
    s[k := ReconcileRecord(Get(s, k), points, completed, name)]
  }

  /** The call every check makes once it has a verdict: the reward is passed
      only when the verdict is true. */
  function Settle(s: Store, k: Key, verdict: bool, reward: nat, name: Option<string>): (r: Store)
    ensures Reconciled(s, r, k, reward, verdict, name)
    ensures SameExcept(s, r, k)
    ensures Grows(s, r)
    ensures IsDone(s, k) ==> r == s
  {
    Reconcile(s, k, if verdict then reward else 0, verdict, name)
  }

  /** The subjects that have at least one record (`distinct("wallet")`). */
  function SubjectsOf(s: Store): set<string>
  {
    set k | k in s :: k.subject
  }

  lemma GrowsTransitive(s1: Store, s2: Store, s3: Store)
    requires Grows(s1, s2) && Grows(s2, s3)
    ensures Grows(s1, s3)
  {
  }

  /** Changes confined to `k`, then to `ks`, are confined to `ks` when `k`
      is one of them. */
  lemma SameOutsideStep(s1: Store, s2: Store, s3: Store, k: Key, ks: set<Key>)
    requires SameOutside(s1, s2, ks) && SameExcept(s2, s3, k) && k in ks
    ensures SameOutside(s1, s3, ks)
  {
  }

  lemma SameOutsideWiden(s: Store, s': Store, ks: set<Key>, ks': set<Key>)
    requires SameOutside(s, s', ks) && ks <= ks'
    ensures SameOutside(s, s', ks')
  {
  }

  /** Reconciling the same verdict twice is the same as reconciling it once:
      a true verdict is rewarded once, a false one changes nothing more. */
  lemma ReconcileIdempotent(s: Store, k: Key, points: nat, completed: bool, name: Option<string>)
    ensures Reconcile(Reconcile(s, k, points, completed, name), k, points, completed, name)
         == Reconcile(s, k, points, completed, name)
  {
  }

  /** Reconciling a sequence of verdicts for one key in turn, as repeated
      runs within one period do. */
  function SettleEach(s: Store, k: Key, verdicts: seq<bool>, reward: nat, name: Option<string>): Store
    decreases |verdicts|
  {
    if |verdicts| == 0 then s
    else SettleEach(Settle(s, k, verdicts[0], reward, name), k, verdicts[1..], reward, name)
  }

  /** At most one reward per completion period: however many verdicts arrive
      for a key, it gains the reward once if it was not done and some verdict
      is true, and nothing otherwise; it ends done exactly when it was done or
      some verdict was true. */
  lemma {:induction false} RewardAtMostOnce(s: Store, k: Key, verdicts: seq<bool>, reward: nat, name: Option<string>)
    ensures PointsAt(SettleEach(s, k, verdicts, reward, name), k)
         == PointsAt(s, k) + (if !IsDone(s, k) && true in verdicts then reward else 0)
    ensures IsDone(SettleEach(s, k, verdicts, reward, name), k) == (IsDone(s, k) || true in verdicts)
    decreases |verdicts|
  {
    if |verdicts| > 0 {
      var s1 := Settle(s, k, verdicts[0], reward, name);
      RewardAtMostOnce(s1, k, verdicts[1..], reward, name);
      assert verdicts == [verdicts[0]] + verdicts[1..];
      assert (true in verdicts) == (verdicts[0] || true in verdicts[1..]);
    }
  }
}

=== FILE: rewards.dfy ===
/** Quest names and the two reward tables (`getRewardPoints`). The wallet and
    NFT services of a family carry identical copies of their family's table,
    so each table is defined once here. */
module Rewards {

  // Daily quest names.
  const CraftShips := "craft_ships"
  const SailDistance := "sail_distance"
  const BattlePve := "battle_pve"
  const BattlePvp := "battle_pvp"
  const ClaimEnergy := "claim_energy"

  // Milestone (newbie) quest names.
  const AddedToRoster := "addedToRoster1ShipQuantity"
  const CutWood := "cutWoodQuantity"
  const MinedOre := "minedOreQuantity"
  const PlantedCotton := "plantedCottonQuantity"
  const RosterSailed := "rosterSailed"
  const ShipOrderArranged := "shipOrderArranged"
  const First4Craft := "first4Craft"
  const FirstPveWin := "firstPveWin"
  const ClaimedIsland := "claimedIsland"
  const WalletCreated := "walletCreated"

  /** The daily price list, as a table. */
  const DailyTable: map<string, nat> := map[
    CraftShips := 5, SailDistance := 10, BattlePve := 15, BattlePvp := 20, ClaimEnergy := 3]

  /** The milestone price list, as a table. */
  const MilestoneTable: map<string, nat> := map[
    AddedToRoster := 5, CutWood := 3, MinedOre := 3, PlantedCotton := 3, RosterSailed := 10,
    ShipOrderArranged := 3, First4Craft := 10, FirstPveWin := 15, ClaimedIsland := 5, WalletCreated := 2]

  /** The daily `getRewardPoints` switch. It agrees with the table and pays
      nothing for a name outside it. */
  function DailyReward(quest: string): (r: nat)
    ensures r == (if quest in DailyTable then DailyTable[quest] else 0)
    ensures r > 0 <==> quest in DailyTable
  {
    if quest == "craft_ships" then 5
    else if quest == "sail_distance" then 10
    else if quest == "battle_pve" then 15
    else if quest == "battle_pvp" then 20
    else if quest == "claim_energy" then 3
    else 0
  }

  /** The milestone `getRewardPoints` switch. It agrees with the table and pays
      nothing for a name outside it. */
  function MilestoneReward(quest: string): (r: nat)
    ensures r == (if quest in MilestoneTable then MilestoneTable[quest] else 0)
    ensures r > 0 <==> quest in MilestoneTable
  {
    if quest == "addedToRoster1ShipQuantity" then 5
    else if quest == "cutWoodQuantity" then 3
    else if quest == "minedOreQuantity" then 3
    else if quest == "plantedCottonQuantity" then 3
    else if quest == "rosterSailed" then 10
    else if quest == "shipOrderArranged" then 3
    else if quest == "first4Craft" then 10
    else if quest == "firstPveWin" then 15
    else if quest == "claimedIsland" then 5
    else if quest == "walletCreated" then 2
    else 0
  }
}

=== FILE: server.dfy ===
/** The read side of the HTTP routes: the `/check-quest` answer, the fixed
    status lists of `/get-all-quests*` and `/get-all-newplayer-quests*`, and
    how those routes choose the player name before running the checks. */
module Server {
  import opened Values
  import opened Progress
  import opened Rewards
  import opened Predicates
  import opened Windows
  import opened Checks
  import opened DailyQuests
  import opened WalletDaily
  import opened NftDaily
  import opened Milestones
  import opened Cron

  /** `/check-quest` (and `/check-quest-nft`): `is_ok` is true exactly when a
      record exists for the subject and quest and its done flag is set. */
  function CheckQuest(s: Store, subject: string, quest: string): (ok: bool)
    ensures ok <==> Get(s, Key(subject, quest)).Some? && Get(s, Key(subject, quest)).value.done
  {
    IsDone(s, Key(subject, quest))
  }

  /** `/check-quest` follows the reconcile rule: after reconciling a record
      it answers true exactly when it answered true before or the verdict was
      true, and the answer for every other record is unchanged. */
  lemma CheckQuestAfterReconcile(s: Store, k: Key, points: nat, completed: bool, name: Option<string>, j: Key)
    ensures CheckQuest(Reconcile(s, k, points, completed, name), k.subject, k.quest) == (CheckQuest(s, k.subject, k.quest) || completed)
    ensures j != k ==> CheckQuest(Reconcile(s, k, points, completed, name), j.subject, j.quest) == CheckQuest(s, j.subject, j.quest)
  {
  }

  /** After the daily reset `/check-quest` answers false for every wallet
      daily quest, and its NFT daily answers are what they were. */
  lemma CheckQuestAfterReset(w: World, subject: string, quest: string)
    ensures !CheckQuest(ResetQuestProgress(w).walletDaily, subject, quest)
    ensures CheckQuest(ResetQuestProgress(w).nftDaily, subject, quest) == CheckQuest(w.nftDaily, subject, quest)
  {
  }

  /** One entry of a status list. */
  datatype Status = Status(questName: string, done: bool, points: nat)

  /** The daily list, in the order the routes answer it. */
  const DailyQuestNames: seq<string> := [CraftShips, BattlePve, BattlePvp, ClaimEnergy]

  /** The milestone list, in the order the routes answer it. */
  const NewbieQuestNames: seq<string> := [AddedToRoster, CutWood, MinedOre, PlantedCotton, RosterSailed,
                                          ShipOrderArranged, WalletCreated, ClaimedIsland, First4Craft, FirstPveWin]

  /** One entry of the list for a quest: the stored flag and points, or
      not done with 0 points when there is no record. */
  function StatusOf(s: Store, subject: string, quest: string): (st: Status)
    ensures st.questName == quest
    ensures Key(subject, quest) !in s ==> !st.done && st.points == 0
    ensures Key(subject, quest) in s ==> st.done == s[Key(subject, quest)].done && st.points == s[Key(subject, quest)].points
  {
    var k := Key(subject, quest);
    if k in s then Status(quest, s[k].done, s[k].points) else Status(quest, false, 0)
  }

  /** The `quests.map(...)` answer: exactly one entry per listed quest name,
      in the list's order, with the stored values or the defaults. */
  function Snapshot(s: Store, subject: string, names: seq<string>): (r: seq<Status>)
    ensures |r| == |names|
    ensures forall i :: 0 <= i < |r| ==> r[i].questName == names[i]
    ensures forall i :: 0 <= i < |r| ==> r[i].done == IsDone(s, Key(subject, names[i])) && r[i].points == PointsAt(s, Key(subject, names[i]))
  {
    seq(|names|, i requires 0 <= i < |names| => StatusOf(s, subject, names[i]))
  }

  /** The status list and `/check-quest` agree on every listed quest. */
  lemma SnapshotAgreesWithCheck(s: Store, subject: string, names: seq<string>)
    ensures forall i :: 0 <= i < |names| ==> Snapshot(s, subject, names)[i].done == CheckQuest(s, subject, names[i])
  {
  }

  /** The milestone list names every priced milestone, and nothing else. */
  lemma NewbieListCoversTable()
    ensures forall q :: q in NewbieQuestNames <==> q in MilestoneTable
  {
  }

  /** After the daily reset the wallet daily list shows every quest not done,
      with the points it showed before. */
  lemma SnapshotAfterReset(w: World, wallet: string)
    ensures var before := Snapshot(w.walletDaily, wallet, DailyQuestNames);
      var after := Snapshot(ResetQuestProgress(w).walletDaily, wallet, DailyQuestNames);
      forall i :: 0 <= i < |after| ==> !after[i].done && after[i].points == before[i].points
  {
  }

  /** The daily list right after a daily run: each entry shows done exactly
      when the quest was done or its own lookup qualified (entries in the
      order craft_ships, battle_pve, battle_pvp, claim_energy). */
  lemma DailySnapshotAfterRun(s: Store, subject: string, sender: string, name: Option<string>, w: Window, feed: DailyFeed)
    ensures var r := Snapshot(RunDaily(s, subject, sender, name, w, feed).store, subject, DailyQuestNames);
      && r[0].done == (IsDone(s, Key(subject, CraftShips)) || Qualifies(feed.craft, CraftDone))
      && r[1].done == (IsDone(s, Key(subject, BattlePve)) || Qualifies(feed.pve, PveDone))
      && r[2].done == (IsDone(s, Key(subject, BattlePvp)) || Qualifies(feed.pvp, es => PvpWon(es, sender)))
      && r[3].done == (IsDone(s, Key(subject, ClaimEnergy)) || Qualifies(feed.faucet, es => Claimed(es, sender)))
  {
    RunDailySettles(s, subject, sender, name, w, feed);
  }

  // ---------------------------------------------------------------------
  // Routes

  /** What a route answers: the status list, the "name could not be
      retrieved" message, or an error. */
  datatype Reply = Statuses(entries: seq<Status>) | NameUnavailable | ServerError

  datatype Served = Served(store: Store, reply: Reply)

  /** `findOne({ subject })` gives some record of the subject (`first` names
      its quest), or none when the subject has no record. */
  predicate FirstRecord(s: Store, subject: string, first: Option<string>)
  {
    && (first.Some? ==> Key(subject, first.value) in s)
    && (first.None? ==> forall k :: k in s ==> k.subject != subject)
  }

  /** The name a route works with: the first record's name when it is
      truthy, otherwise the name the lookup returns (a lookup that throws
      ends the route with an error). */
  function ChooseName(s: Store, subject: string, first: Option<string>, lookup: Fetch<Option<string>>): (n: Fetch<Option<string>>)
    requires FirstRecord(s, subject, first)
  {
    if first.Some? && Truthy(s[Key(subject, first.value)].playerName) then Fetched(s[Key(subject, first.value)].playerName)
    else lookup
  }

  /** The shape every status route shares: without a truthy name nothing
      runs and the store is unchanged; otherwise the subject's checks run
      under that name, leaving `after`, and the list is read from it. */
  function Respond(s: Store, after: Store, subject: string, names: seq<string>, n: Fetch<Option<string>>): (r: Served)
    ensures r.reply.Statuses? <==> n.Fetched? && Truthy(n.data)
    ensures r.store == if r.reply.Statuses? then after else s
    ensures r.reply.Statuses? ==> r.reply.entries == Snapshot(after, subject, names)
    ensures r.reply == ServerError <==> n.Failed?
  {
    match n
    case Failed => Served(s, ServerError)
    case Fetched(name) =>
      if Truthy(name) then Served(after, Statuses(Snapshot(after, subject, names)))
      else Served(s, NameUnavailable)
  }

  /** The name handed to the checks: the chosen one (they only run when it
      is truthy). */
  function RunName(n: Fetch<Option<string>>): Option<string>
  {
    if n.Fetched? then n.data else None
  }

  /** `/get-all-quests`: the wallet's four daily checks, then the daily list. */
  function GetAllQuests(s: Store, wallet: string, first: Option<string>, lookup: Fetch<Option<string>>,
                        loadTime: int, feed: DailyFeed): (r: Served)
    requires FirstRecord(s, wallet, first)
    ensures Grows(s, r.store) && SameOutside(s, r.store, DailyKeys(wallet))
    ensures !r.reply.Statuses? ==> r.store == s
    ensures r.reply.Statuses? ==> |r.reply.entries| == 4 && r.store == RunDailyChecks(s, wallet, loadTime, feed).store
    ensures var n := ChooseName(s, wallet, first, lookup);
      && (r.reply.Statuses? <==> n.Fetched? && Truthy(n.data))
      && (r.reply == ServerError <==> n.Failed?)
    ensures r.reply.Statuses? ==> r.reply.entries == Snapshot(r.store, wallet, DailyQuestNames)
  {
    Respond(s, RunDailyChecks(s, wallet, loadTime, feed).store, wallet, DailyQuestNames, ChooseName(s, wallet, first, lookup))
  }

  /** `/get-all-quests-nft`: the NFT's four daily checks, under the chosen
      name and the current day's window, then the daily list. */
  function GetAllQuestsNft(s: Store, wallet: string, nftId: string, first: Option<string>, lookup: Fetch<Option<string>>,
                           now: int, feed: DailyFeed): (r: Served)
    requires FirstRecord(s, nftId, first)
    ensures Grows(s, r.store) && SameOutside(s, r.store, DailyKeys(nftId))
    ensures !r.reply.Statuses? ==> r.store == s
    ensures r.reply.Statuses? ==> |r.reply.entries| == 4
    ensures forall k :: k in r.store && k !in s ==> Truthy(r.store[k].playerName)
    ensures var n := ChooseName(s, nftId, first, lookup);
      && (r.reply.Statuses? <==> n.Fetched? && Truthy(n.data))
      && (r.reply == ServerError <==> n.Failed?)
      && (r.reply.Statuses? ==> r.store == RunNftDaily(s, wallet, nftId, RunName(n), now, feed).store)
      && (forall k :: k in r.store && k !in s ==> r.store[k].playerName == RunName(n))
    ensures r.reply.Statuses? ==> r.reply.entries == Snapshot(r.store, nftId, DailyQuestNames)
  {
    var n := ChooseName(s, nftId, first, lookup);
    Respond(s, RunNftDaily(s, wallet, nftId, RunName(n), now, feed).store, nftId, DailyQuestNames, n)
  }

  /** The NFT daily route answers, per quest, what its checks decided. */
  lemma GetAllQuestsNftReports(s: Store, wallet: string, nftId: string, first: Option<string>, lookup: Fetch<Option<string>>,
                               now: int, feed: DailyFeed)
    requires FirstRecord(s, nftId, first)
    ensures var r := GetAllQuestsNft(s, wallet, nftId, first, lookup, now, feed);
      r.reply.Statuses? ==>
        && r.reply.entries[0].done == (IsDone(s, Key(nftId, CraftShips)) || Qualifies(feed.craft, CraftDone))
        && r.reply.entries[1].done == (IsDone(s, Key(nftId, BattlePve)) || Qualifies(feed.pve, PveDone))
        && r.reply.entries[2].done == (IsDone(s, Key(nftId, BattlePvp)) || Qualifies(feed.pvp, es => PvpWon(es, wallet)))
        && r.reply.entries[3].done == (IsDone(s, Key(nftId, ClaimEnergy)) || Qualifies(feed.faucet, es => Claimed(es, wallet)))
  {
    var n := ChooseName(s, nftId, first, lookup);
    if n.Fetched? && Truthy(n.data) {
      DailySnapshotAfterRun(s, nftId, wallet, n.data, DailyWindow(now), feed);
    }
  }

  /** `/get-all-newplayer-quests`: the wallet's milestone run under the
      chosen name, then the milestone list. */
  function GetAllNewplayerQuests(s: Store, wallet: string, first: Option<string>, lookup: Fetch<Option<string>>,
                                 loadTime: int, feed: NewbieFeed): (r: Served)
    requires FirstRecord(s, wallet, first)
    ensures Grows(s, r.store) && SameOutside(s, r.store, MilestoneKeys(wallet))
    ensures !r.reply.Statuses? ==> r.store == s
    ensures r.reply.Statuses? ==> |r.reply.entries| == 10
    ensures forall k :: k in r.store && k !in s ==> Truthy(r.store[k].playerName)
    ensures var n := ChooseName(s, wallet, first, lookup);
      && (r.reply.Statuses? <==> n.Fetched? && Truthy(n.data))
      && (r.reply == ServerError <==> n.Failed?)
      && (r.reply.Statuses? ==> r.store == RunNewbieWallet(s, wallet, RunName(n), loadTime, feed).store)
      && (forall k :: k in r.store && k !in s ==> r.store[k].playerName == RunName(n))
    ensures r.reply.Statuses? ==> r.reply.entries == Snapshot(r.store, wallet, NewbieQuestNames)
  {
    var n := ChooseName(s, wallet, first, lookup);
    Respond(s, RunNewbieWallet(s, wallet, RunName(n), loadTime, feed).store, wallet, NewbieQuestNames, n)
  }

  /** `/get-all-newplayer-quests-nft`: the NFT's milestone run under the
      chosen name, then the milestone list. */
  function GetAllNewplayerQuestsNft(s: Store, wallet: string, nftId: string, first: Option<string>, lookup: Fetch<Option<string>>,
                                    craftClock: int, pveClock: int, feed: NewbieFeed): (r: Served)
    requires FirstRecord(s, nftId, first)
    ensures Grows(s, r.store) && SameOutside(s, r.store, MilestoneKeys(nftId))
    ensures !r.reply.Statuses? ==> r.store == s
    ensures r.reply.Statuses? ==> |r.reply.entries| == 10
    ensures forall k :: k in r.store && k !in s ==> Truthy(r.store[k].playerName)
    ensures var n := ChooseName(s, nftId, first, lookup);
      && (r.reply.Statuses? <==> n.Fetched? && Truthy(n.data))
      && (r.reply == ServerError <==> n.Failed?)
      && (r.reply.Statuses? ==> r.store == RunNewbieNft(s, wallet, nftId, RunName(n), craftClock, pveClock, feed).store)
      && (forall k :: k in r.store && k !in s ==> r.store[k].playerName == RunName(n))
    ensures r.reply.Statuses? ==> r.reply.entries == Snapshot(r.store, nftId, NewbieQuestNames)
  {
    var n := ChooseName(s, nftId, first, lookup);
    Respond(s, RunNewbieNft(s, wallet, nftId, RunName(n), craftClock, pveClock, feed).store, nftId, NewbieQuestNames, n)
  }
}

=== FILE: values.dfy ===
/** Value types shared by the whole model: optional values, the JavaScript
    values the indexer hands back, and the outcome of one indexer request. */
module Values {

  /** A value that may be absent (`undefined`/`null` in the source). */
  datatype Option<+T> = None | Some(value: T)

  /** A JSON value after parsing, as JavaScript compares it. Numbers are
      integers here; fractional numbers, arrays and objects do not occur in
      the fields this model reads. */
  datatype JsValue = Undefined | Null | Bool(b: bool) | Num(n: int) | Str(s: string)

  /** One indexer request: it either throws (network error, timeout, error
      status) or returns its payload. */
  datatype Fetch<+T> = Failed | Fetched(data: T)

  /** JavaScript's `v >= n` for a number `n`: the left side goes through
      ToNumber (true is 1, false and null are 0, undefined is NaN) and any
      comparison with NaN is false. Text is treated as NaN. */
  predicate AtLeast(v: JsValue, n: int)
  {
    match v
    case Num(m) => m >= n
    case Bool(b) => (if b then 1 else 0) >= n
    case Null => 0 >= n
    case Undefined => false
    case Str(_) => false
  }

  /** Above 1, only a number can meet a `>=` threshold: a boolean, null or
      missing response never completes a counting quest. */
  lemma OnlyNumbersMeetThresholds(v: JsValue, n: int)
    requires n >= 2
    ensures AtLeast(v, n) <==> v.Num? && v.n >= n
  {
  }

  /** JavaScript truthiness of an optional name: absent and empty are falsy. */
  predicate Truthy(name: Option<string>)
  {
    name.Some? && name.value != ""
  }

  /** JavaScript `a || b` on optional names. */
  function OrElse(a: Option<string>, b: Option<string>): (r: Option<string>)
    ensures Truthy(a) ==> r == a
    ensures !Truthy(a) ==> r == b
  {
    if Truthy(a) then a else b
  }
}

=== FILE: wallet_daily.dfy ===
/** The wallet daily service: the shared daily checks keyed and queried by
    the wallet itself, storing no player name, over the window frozen when
    the module loaded (`loadTime`). */
module WalletDaily {
  import opened Values
  import opened Progress
  import opened Rewards
  import opened Predicates
  import opened Windows
  import opened Checks
  import opened DailyQuests

  /** The wallet service's `updateQuestProgressInDB`: the same three cases,
      keyed by wallet, and it has no name argument, so a record it creates
      carries no name. */
  function ReconcileWallet(s: Store, wallet: string, quest: string, points: nat, completed: bool): (r: Store)
    ensures Reconciled(s, r, Key(wallet, quest), points, completed, None)
    ensures forall k :: k in r && k !in s ==> r[k].playerName == None
    ensures Grows(s, r)
  {
    Reconcile(s, Key(wallet, quest), points, completed, None)
  }

  /** The wallet daily run (`checkCraftForDailyQuest({ playerAddr })` and the
      three others, in order): only this wallet's four daily records can
      change, records only grow, no name is stored, and every lookup uses
      the frozen window and the wallet's own address. */
  function RunDailyChecks(s: Store, wallet: string, loadTime: int, feed: DailyFeed): (o: Outcome)
    ensures Grows(s, o.store)
    ensures SameOutside(s, o.store, DailyKeys(wallet))
    ensures forall k :: k in o.store && k !in s ==> o.store[k].playerName == None
    ensures forall q :: q in o.lookups ==> q.window == Some(WalletDailyWindow(loadTime)) && q.sender == wallet
  {
    RunDaily(s, wallet, wallet, None, WalletDailyWindow(loadTime), feed)
  }

  /** Every check of the wallet run reconciles through `ReconcileWallet`:
      once its lookup has answered, the store it leaves is the wallet
      reconcile of its own quest, with the reward passed only on a true
      verdict. */
  lemma WalletChecksReconcile(s: Store, wallet: string, loadTime: int, feed: DailyFeed, i: nat)
    requires i < 4
    ensures var st := DailySteps(wallet, wallet, WalletDailyWindow(loadTime), feed)[i];
      && st.key.subject == wallet
      && (st.verdict.Fetched? ==>
            Evaluate(s, None, st).store
            == ReconcileWallet(s, wallet, st.key.quest, if st.verdict.data then st.reward else 0, st.verdict.data))
  {
  }
}

=== FILE: windows.dfy ===
/** Query windows in integer epoch milliseconds. Clock readings and module
    load instants are parameters; UTC has no leap seconds in JavaScript, so a
    UTC day is exactly `DayMs` long and starts at a multiple of it. */
module Windows {

  const SecondMs := 1000
  const MinuteMs := 60 * SecondMs
  const DayMs := 24 * 60 * MinuteMs

  /** `Date.UTC(2024, 7, 8, 0, 0, 0)`: 2024-08-08T00:00:00Z, where every
      milestone query window starts. */
  const MilestoneLaunch := 1_723_075_200_000

  datatype Window = Window(startAt: int, endedAt: int)

  /** The window includes both bounds. */
  predicate Covers(w: Window, t: int)
  {
    w.startAt <= t <= w.endedAt
  }

  /** Midnight UTC of the day `now` falls in. */
  function UtcDayStart(now: int): (d: int)
    ensures d % DayMs == 0
    ensures d <= now < d + DayMs
  {
    now - now % DayMs
  }

  /** `getStartAndEndTimestamps` of the NFT daily service, recomputed on each
      call: from 00:01:00 of the current UTC day to 00:00:59 of the next. */
  function DailyWindow(now: int): (w: Window)
    ensures w.startAt % DayMs == MinuteMs
    ensures w.endedAt - w.startAt == DayMs - SecondMs
    ensures w.startAt - MinuteMs <= now < w.startAt - MinuteMs + DayMs
  {
    var day := UtcDayStart(now);
    Window(day + MinuteMs, day + DayMs + 59 * SecondMs)
  }

  lemma DayStartOfMultiple(now: int)
    ensures UtcDayStart(now) == (now / DayMs) * DayMs
  {
  }

  /** Every call made during one UTC day queries the same window. */
  lemma SameDaySameWindow(a: int, b: int)
    requires a / DayMs == b / DayMs
    ensures DailyWindow(a) == DailyWindow(b)
  {
    DayStartOfMultiple(a);
    DayStartOfMultiple(b);
  }

  /** Consecutive days' windows do not overlap: the next window starts one
      second after this one ends, so an event stamped in that second (between
      00:00:59 and 00:01:00 UTC) belongs to no daily window. */
  lemma ConsecutiveWindowsLeaveOneSecond(a: int, b: int)
    requires b / DayMs == a / DayMs + 1
    ensures DailyWindow(a).endedAt + SecondMs == DailyWindow(b).startAt
    ensures forall t :: DailyWindow(a).endedAt < t < DailyWindow(b).startAt ==> !Covers(DailyWindow(a), t) && !Covers(DailyWindow(b), t)
  {
    DayStartOfMultiple(a);
    DayStartOfMultiple(b);
  }

  /** During the first minute of a UTC day the current instant lies before
      the window's start. */
  lemma FirstMinuteOutsideWindow(now: int)
    requires now % DayMs < MinuteMs
    ensures !Covers(DailyWindow(now), now)
  {
  }

  /** The window of the wallet daily service: computed once when its module
      loads, from one minute past the same local time a day earlier; the
      `59` passed as a fourth argument to the three-parameter helper is
      dropped, so the end is the load instant itself. Daylight-saving shifts
      of the local-time setters are not modelled. */
  function WalletDailyWindow(loadTime: int): (w: Window)
    ensures w.endedAt == loadTime
    ensures w.endedAt - w.startAt == DayMs - MinuteMs
  {
    Window(loadTime - DayMs + MinuteMs, loadTime)
  }

  /** Consequence: however long the process runs, the wallet daily checks never
      see an event stamped after the module loaded. */
  lemma WalletWindowMissesLaterEvents(loadTime: int, t: int)
    requires t > loadTime
    ensures !Covers(WalletDailyWindow(loadTime), t)
  {
  }

  /** The milestone window: from the launch date to a clock reading truncated
      to whole seconds (the helper rebuilds the instant from UTC fields and
      drops the milliseconds). */
  function MilestoneWindow(clock: int): (w: Window)
    ensures w.startAt == MilestoneLaunch
    ensures w.endedAt % SecondMs == 0
    ensures w.endedAt <= clock < w.endedAt + SecondMs
  {
    Window(MilestoneLaunch, clock - clock % SecondMs)
  }

  /** Readings within one second give the same milestone window; readings at
      least a second apart give different ends. */
  lemma MilestoneWindowTracksClock(a: int, b: int)
    ensures a / SecondMs == b / SecondMs ==> MilestoneWindow(a) == MilestoneWindow(b)
    ensures a + SecondMs <= b ==> MilestoneWindow(a).endedAt < MilestoneWindow(b).endedAt
  {
    assert a - a % SecondMs == (a / SecondMs) * SecondMs;
    assert b - b % SecondMs == (b / SecondMs) * SecondMs;
  }
}
